=== FILE: README.md ===
# Vexar proxy supervisor and DNS ranking, modelled in Dafny

Vexar is a macOS menu-bar app that runs the `spoofdpi` proxy binary as a
child process and ranks a small catalog of DNS resolvers by latency. This
project models its core as pure functions over immutable state and proves
properties of them.

- `launch.dfy` (`Launch`) covers what `start` needs before it launches the child:
  - the binary search over the Homebrew and bundle paths;
  - the scan of ports 8080 to 8090;
  - the argument vector, with a reader that gets the port and DNS address back.
- `supervisor.dfy` (`Supervisor`) is the crash-recovery state machine of `ProcessManager`:
  - the operations `start`, `stop` and `stopBlocking`, where `start` is two events: its first main-actor step, then the launch after the settle sleep, with any other event allowed in between;
  - the termination handler, with its three-crash limit and 60-second window;
  - the delayed restart;
  - the 5-second reset of the crash count.

  Delayed tasks are counters of scheduled-but-not-yet-run tasks. Their firing is an event.
- `log_pipeline.dfy` (`LogPipeline`) covers the path from child output to the visible log:
  - the output is split into non-empty lines;
  - the lock-protected `LogBuffer` coalesces them, with at most one flush pending;
  - queuing is two steps (append the lines, then test and set the pending flag), because the source takes the lock separately for each;
  - flushing is two steps (take the lines, then clear the pending flag), because the source does them under two separate lock acquisitions;
  - the lines are stamped and the log is trimmed from above 300 entries to 200;
  - `clearLogs` empties the visible log.
- `proxy_cleanup.dfy` (`ProxyCleanup`) covers the proxy reset. It filters the `networksetup` service listing and builds the two "off" commands per service.
- `dns_catalog.dfy` (`DnsCatalog`) holds the five resolvers, the `automatic` pseudo-entry and the default server.
- `dns_ranking.dfy` (`DnsRanking`) is one `measureAllLatencies` round:
  - it resets the latency map;
  - it writes one entry per server as the probes finish, in any completion order;
  - it picks the best server among entries below the 9999 sentinel.

  Swift's dictionary iteration order is an input.
- `text.dfy`, `sequences.dfy` and `wrappers.dfy` are shared building blocks:
  - `components(separatedBy:)` with the newline set or `:` as the source uses it, and with `.` for the model's own check that the catalog addresses are dotted quads;
  - decimal rendering and parsing;
  - `filter`, concatenation, `Option` and `Result`.

Inputs, not modelled:
- the file system;
- socket binding;
- the OS's answer to "is the child alive";
- process launch errors;
- each probe's outcome;
- the clock, as integer seconds;
- the timestamp string.

## Model

| member | source | states |
|---|---|---|
| Text.Components | Vexar/Managers/ProcessManager.swift:347 | there is always at least one piece; the first piece is the input's prefix up to the first separator (the separator-free prefix that `FirstSeparator` measures), and more pieces follow exactly when a separator exists |
| Text.JoinLinesRoundTrip | Vexar/Managers/ProcessManager.swift:422 | splitting newline-free lines joined by line feeds gives the lines back |
| Text.ComponentsCount | Vexar/Managers/ProcessManager.swift:347 | splitting at separators yields one more piece than there are separators |
| Text.ComponentsFlatten | Vexar/Managers/ProcessManager.swift:347 | the pieces, concatenated, are the input with only the separators removed |
| Text.DecimalRoundTrip | Vexar/Managers/ProcessManager.swift:91 | the decimal text of a port parses back to that port |
| Launch.BinaryCandidates | Vexar/Managers/ProcessManager.swift:243-247 | the search order is the Apple-silicon Homebrew path, then the Intel one, then the bundled copy only when the bundle has one |
| Launch.FindBinary | Vexar/Managers/ProcessManager.swift:242-255 | the result is absent exactly when no candidate exists; otherwise it is an existing candidate and no earlier candidate exists |
| Launch.ScanPorts | Vexar/Managers/ProcessManager.swift:257-269 | the first available port at or above the start and at most 8090, or NoPortsAvailable when every one is taken |
| Launch.FindAvailablePort | Vexar/Managers/ProcessManager.swift:257-269 | the loop returns the lowest free port in 8080–8090; it fails with NoPortsAvailable if and only if all eleven are taken |
| Launch.ProcessArguments | Vexar/Managers/ProcessManager.swift:90-98 | the fixed five arguments with `127.0.0.1:<port>`, plus `--dns-addr <dns>` exactly when the address is present and non-empty |
| Launch.ArgumentsRoundTrip | Vexar/Managers/ProcessManager.swift:90-98 | reading the vector back recovers the port, and the DNS address exactly when it was present and non-empty |
| Supervisor.BeginStart | Vexar/Managers/ProcessManager.swift:61-66 | the first step of `start` clears the user-stop flag, stores the DNS address and queues the rest of the call with that address; nothing else changes |
| Supervisor.LaunchChild | Vexar/Managers/ProcessManager.swift:68-141 | fails with BinaryNotFound exactly when no candidate exists, with NoPortsAvailable exactly when a binary exists but all of 8080–8090 are taken, and with StartFailed carrying the OS's reason when only the launch fails, the child then being recorded and nothing else changing; the first two failures change nothing at all. Succeeds exactly when a binary and a port exist and the launch reports no error; then the supervisor is running, the child is the first existing candidate with the lowest free port's arguments, one Started notice and one reset task are added. The user-stop flag and the crash bookkeeping are untouched |
| Supervisor.LaunchFires | Vexar/Managers/ProcessManager.swift:68-141 | a waiting start resumes: it leaves the queue, launches with the address it was called with, and leaves the user-stop flag, the crash bookkeeping and the number of restart attempts as they were; when the host allows a launch the supervisor is running with the first existing candidate on the lowest free port and one Started notice logged, otherwise isRunning, the journal and the reset tasks are unchanged; a missing binary or port changes nothing but the queue; no other field changes |
| Supervisor.Start | Vexar/Managers/ProcessManager.swift:61-141 | an uninterrupted start clears the user-stop flag, stores the address, and succeeds exactly when the host allows a launch, the supervisor then running |
| Supervisor.StartIsBeginThenLaunch | Vexar/Managers/ProcessManager.swift:61-141 | the uninterrupted start equals its first step followed at once by the launch it queued |
| Supervisor.Stop | Vexar/Managers/ProcessManager.swift:157-170 | sets the user-stop flag and clears isRunning; forgets the child only when it is alive; nothing else changes |
| Supervisor.StopBlocking | Vexar/Managers/ProcessManager.swift:174-195 | does nothing unless the child is alive; otherwise forgets it and clears isRunning, and nothing else changes, the user-stop flag included |
| Supervisor.CountBefore | Vexar/Managers/ProcessManager.swift:220-224 | the count the limit is checked against is the stored count, or zero; zero replaces it exactly when the last crash lies more than 60 s back |
| Supervisor.Terminate | Vexar/Managers/ProcessManager.swift:214-240 | always clears isRunning and logs the exit. A user-initiated or status-0 exit changes nothing else. A crash below the limit bumps the window-adjusted count, stamps the time and schedules one restart; at the limit it only logs that it gives up. The child, the port, the pending launches and the reset tasks never change |
| Supervisor.RestartFires | Vexar/Managers/ProcessManager.swift:232-236 | consumes one pending restart and begins a start with the stored DNS address, whatever the user-stop flag says: the flag is cleared and a launch with that address is queued; the crash bookkeeping, the child and the journal are unchanged |
| Supervisor.ResetFires | Vexar/Managers/ProcessManager.swift:129-135 | consumes one pending reset task and zeroes the crash count exactly when the supervisor is running at that moment; nothing else changes |
| Supervisor.RunKeepsValid | Vexar/Managers/ProcessManager.swift:214-240 | in every reachable state the crash count is at most 3 and the current port lies in 8080–8090 |
| Supervisor.CrashWindowIsStrict | Vexar/Managers/ProcessManager.swift:220-224 | a crash exactly 60 s after the last one still counts (no restart at the limit); 61 s later the count restarts at 1 with a restart scheduled |
| Supervisor.RestartIffBelowLimit | Vexar/Managers/ProcessManager.swift:226-239 | a crash schedules a restart if and only if fewer than three crashes are counted in the window |
| Supervisor.CrashThenRestart | Vexar/Managers/ProcessManager.swift:219-236 | one crash below the limit, its restart and the launch it queues raise the count by one, log one restart attempt, keep the DNS address and give a new child that address |
| Supervisor.FourQuickCrashes | Vexar/Managers/ProcessManager.swift:214-240 | four crashes each within 60 s of the previous, with each restart launching in between and no reset task firing, give exactly three restart attempts; the fourth logs "maximum reached", no restart is pending, and every restart reused the original DNS address |
| Supervisor.StopDoesNotCancelPendingRestart | Vexar/Managers/ProcessManager.swift:232-236 | a restart scheduled before `stop()` still brings the proxy back up afterwards and clears the user-stop flag |
| Supervisor.StopDuringLaunchWait | Vexar/Managers/ProcessManager.swift:61-72 | a `stop()` during a start's settle sleep does not prevent the launch: the proxy runs with the user-stop flag set, and a later crash of that child is neither counted nor restarted |
| Supervisor.LateExitAfterRestartIsACrash | Vexar/Managers/ProcessManager.swift:61-66 | after stop then start, an exit of the old child reported late with a non-zero status counts as a crash and schedules a restart |
| Supervisor.StopBlockingExitIsACrash | Vexar/Managers/ProcessManager.swift:174-195 | if the child `stopBlocking()` terminates exits with a non-zero status, that exit counts as a crash and schedules a restart |
| Supervisor.StaleResetClearsCount | Vexar/Managers/ProcessManager.swift:129-135 | a reset task left over from before a crash zeroes the count as soon as the restarted child is launched, so quick crash loops need not reach the limit |
| LogPipeline.SplitLines | Vexar/Managers/ProcessManager.swift:347-348 | every line is non-empty and newline-free; the lines concatenated are the chunk with its newline characters removed |
| LogPipeline.SplitLinesOfJoin | Vexar/Managers/ProcessManager.swift:347-348 | text made of newline-free lines joined by line feeds splits into exactly its non-empty lines, in order |
| LogPipeline.SplitLinesAtNewline | Vexar/Managers/ProcessManager.swift:347-348 | the text is cut at every newline character, LF or not: the text before the first one gives at most one line, followed by the lines of the rest |
| LogPipeline.SplitLinesOfPlain | Vexar/Managers/ProcessManager.swift:347-348 | a non-empty chunk without newlines is one line |
| LogPipeline.Prefixed | Vexar/Managers/ProcessManager.swift:349 | one entry per line, each starting with the prefix and exactly that much longer |
| LogPipeline.PrefixedRoundTrip | Vexar/Managers/ProcessManager.swift:349 | stripping the stream prefix gives back each line |
| LogPipeline.ReadOutput | Vexar/Managers/ProcessManager.swift:339-353 | an empty or undecodable chunk queues nothing; a decoded chunk queues one prefixed entry per line, in order |
| LogPipeline.Append | Vexar/Managers/ProcessManager.swift:307-311 | the new lines follow the old ones; the pending flag is unchanged |
| LogPipeline.TakeAll | Vexar/Managers/ProcessManager.swift:313-319 | hands out exactly the buffered lines in order and leaves the buffer empty |
| LogPipeline.SetFlushPending | Vexar/Managers/ProcessManager.swift:321-325 | sets the flag and keeps the lines |
| LogPipeline.CheckAndSetPending | Vexar/Managers/ProcessManager.swift:327-333 | returns true exactly when the flag was clear, and leaves it set |
| LogPipeline.BatchAppendLogs | Vexar/Managers/ProcessManager.swift:379-388 | the result is a suffix of old log plus stamped messages, never longer than 300; if it would exceed 300 it is exactly 200 long; the newest entries are the stamped messages in order |
| LogPipeline.QueueAppend | Vexar/Managers/ProcessManager.swift:355-357 | the first step of `queueLogs` puts the lines at the end of the undelivered stream and leaves the flag and the flushes alone |
| LogPipeline.QueueCheck | Vexar/Managers/ProcessManager.swift:359-365 | the second step sets the pending flag and schedules a flush exactly when it found the flag clear; the stream is unchanged |
| LogPipeline.Queue | Vexar/Managers/ProcessManager.swift:355-366 | an uninterrupted `queueLogs`: the lines join the end of the buffer and of the undelivered stream, the flag ends set, and a flush is scheduled exactly when none was pending |
| LogPipeline.LateCheckSchedulesEmptyFlush | Vexar/Managers/ProcessManager.swift:355-376 | a flush running between the two steps of `queueLogs` takes the new lines; the flag test then schedules a second flush, which sends nothing |
| LogPipeline.FlushBegins | Vexar/Managers/ProcessManager.swift:368-369 | a scheduled flush takes the whole buffer; the undelivered stream keeps its order; only the buffer, the scheduled count and the taken lines change |
| LogPipeline.FlushEnds | Vexar/Managers/ProcessManager.swift:370-376 | clears the pending flag and sends the taken lines as one batch unless there are none; the undelivered stream keeps its order; the buffered lines, the visible log and the queue callers are untouched |
| LogPipeline.Deliver | Vexar/Managers/ProcessManager.swift:374-376 | the oldest batch goes through batchAppendLogs and leaves the front of the undelivered stream: exactly one batch is delivered and the later batches stay in flight unchanged, in order; nothing but those batches and the visible log changes |
| LogPipeline.ClearLogs | Vexar/Managers/ProcessManager.swift:205-210 | the visible log is empty; lines still buffered or in flight are kept and arrive later; nothing but the visible log changes |
| LogPipeline.AddLog | Vexar/Managers/ProcessManager.swift:391-393 | a message takes exactly the uninterrupted `queueLogs` path of child output: it joins the end of the buffer and of the undelivered stream, and the visible log is untouched |
| LogPipeline.StrandedLines | Vexar/Managers/ProcessManager.swift:368-376 | lines queued between a flush's take and its flag reset end up buffered with no flush outstanding, so the next flush step does nothing |
| LogPipeline.QueueAll | Vexar/Managers/ProcessManager.swift:355-366 | queuing chunks in turn appends their concatenation to the undelivered stream |
| LogPipeline.QueuedTogetherFlushTogether | Vexar/Managers/ProcessManager.swift:355-376 | from idle, everything queued before the throttled flush runs arrives as one batch, in order |
| LogPipeline.QueueAllFromIdle | Vexar/Managers/ProcessManager.swift:355-366 | from idle, any number of queued chunks schedule exactly one flush |
| LogPipeline.QueueAllWhilePending | Vexar/Managers/ProcessManager.swift:355-366 | while a flush is pending, queuing schedules nothing more and only grows the buffer |
| LogPipeline.RunKeepsValid | Vexar/Managers/ProcessManager.swift:302-388 | under any interleaving, at most one flush is outstanding, the pending flag is set exactly when one is, and the log never exceeds 300 entries |
| ProxyCleanup.IsServiceLine | Vexar/Managers/ProcessManager.swift:423-427 | an empty line, a line containing "An asterisk" and a line containing "(*)" are all rejected |
| ProxyCleanup.LeadingAsteriskIsKept | Vexar/Managers/ProcessManager.swift:423-427 | a line whose only asterisk is a leading one, such as `*Wi-Fi`, passes the filter |
| ProxyCleanup.ServiceNames | Vexar/Managers/ProcessManager.swift:422-427 | every name kept is a line of the listing, non-empty and containing neither "An asterisk" nor "(*)"; every such line of the listing is kept |
| ProxyCleanup.ServiceNamesOfLines | Vexar/Managers/ProcessManager.swift:422-427 | for any listing of newline-free lines, the names are exactly the lines the filter keeps, in listing order |
| ProxyCleanup.HeaderDropped | Vexar/Managers/ProcessManager.swift:423-427 | a line containing "An asterisk" is not kept |
| ProxyCleanup.ServiceNamesOfListing | Vexar/Managers/ProcessManager.swift:422-427 | for a header line followed by enabled service lines, exactly the services come back, in order |
| ProxyCleanup.CommandsFor | Vexar/Managers/ProcessManager.swift:430-442 | two commands per service, web proxy first then secure web proxy |
| ProxyCleanup.ResetCommands | Vexar/Managers/ProcessManager.swift:408-447 | no listing, no commands; otherwise the two off-commands for each kept service, in listing order |
| ProxyCleanup.CommandsNameEachServiceTwice | Vexar/Managers/ProcessManager.swift:430-442 | command k names service k/2 and turns it off |
| DnsCatalog.Ids | Vexar/Managers/DNS/DNSServer.swift:4 | the ids of the servers, position by position |
| DnsCatalog.CatalogIds | Vexar/Managers/DNS/DNSServer.swift:12-18 | the catalog ids are cloudflare, google, quad9, adguard, cisco, pairwise distinct |
| DnsCatalog.Ipv4TextIsEndpoint | Vexar/Managers/DNS/DNSServer.swift:13-17 | four octets rendered with dots and a port parse back as an IPv4 endpoint with that port |
| DnsCatalog.RenderedEndpointParses | Vexar/Managers/DNS/DNSServer.swift:13-17 | such an address has exactly one colon and splits into a dotted quad and the port |
| DnsCatalog.CatalogEndpoints | Vexar/Managers/DNS/DNSServer.swift:12-18 | every catalog address is a dotted-quad IPv4 address followed by `:53` |
| DnsCatalog.CatalogAddressesParse | Vexar/Managers/DNS/DNSServer.swift:13-17 | every catalog address has exactly one colon and splits into a dotted-quad IPv4 address and port 53 |
| DnsCatalog.DefaultIsCloudflare | Vexar/Managers/DNS/DNSServer.swift:23 | the default is the first catalog entry, Cloudflare at 1.1.1.1:53 |
| DnsCatalog.AutomaticIsNotACatalogServer | Vexar/Managers/DNS/DNSServer.swift:20 | the automatic entry has id "auto", no address, and is not a catalog server |
| DnsRanking.ProbeMs | Vexar/Managers/DNSManager.swift:53-60 | a ready probe reports its elapsed milliseconds, a failed one the 9999 sentinel |
| DnsRanking.HostOf | Vexar/Managers/DNSManager.swift:22 | the host is the colon-free prefix of the address up to its first colon |
| DnsRanking.HostOfEndpoint | Vexar/Managers/DNSManager.swift:22 | a colon-free host followed by `:` and anything is read back as that host |
| DnsRanking.EndpointHost | Vexar/Managers/DNSManager.swift:22 | a rendered `a.b.c.d:53` address is probed at its dotted quad, and that host plus `:53` is the address |
| DnsRanking.CatalogProbeHosts | Vexar/Managers/DNSManager.swift:22 | every catalog server is probed at a dotted-quad host that, followed by `:53`, is its address |
| DnsRanking.Collected | Vexar/Managers/DNSManager.swift:28-31 | the map has an entry for exactly the servers whose probes have finished |
| DnsRanking.CollectedValues | Vexar/Managers/DNSManager.swift:28-31 | each entry holds the result of a finished probe of a server with that id |
| DnsRanking.Qualifying | Vexar/Managers/DNSManager.swift:35 | exactly the entries strictly below 9999, values unchanged |
| DnsRanking.MinIndex | Vexar/Managers/DNSManager.swift:35 | the position of a minimal value, with every earlier value strictly larger (first minimum wins) |
| DnsRanking.PickBest | Vexar/Managers/DNSManager.swift:35 | no pick exactly when every entry is at least 9999; otherwise a minimal entry below 9999 |
| DnsRanking.PickBestUpToTies | Vexar/Managers/DNSManager.swift:35 | any two iteration orders pick entries of equal latency |
| DnsRanking.FirstWithId | Vexar/Managers/DNSManager.swift:36 | a server with the id that no earlier server shares; absent exactly when none has it |
| DnsRanking.BeginRound | Vexar/Managers/DNSManager.swift:15-17 | the prober is busy, the latencies are empty, the best server is kept |
| DnsRanking.FinishRound | Vexar/Managers/DNSManager.swift:34-39 | the best server is kept when every entry is at least 9999, otherwise becomes a server with minimal latency below 9999; the prober is not busy |
| DnsRanking.CollectedCoversAll | Vexar/Managers/DNSManager.swift:19-31 | when every probe finishes once, every server id has an entry and no other key exists |
| DnsRanking.MeasureAll | Vexar/Managers/DNSManager.swift:14-40 | after a round every server has an entry holding some same-id server's probe result, the prober is idle, and the best server is kept or is a best choice |
| DnsRanking.MeasureAllDistinctIds | Vexar/Managers/DNSManager.swift:14-40 | with distinct ids each server's entry is its own probe result, and a server whose probe failed becomes best only if it already was |
| DnsRanking.AllProbesFailedKeepsBest | Vexar/Managers/DNSManager.swift:34-37 | when every probe fails all entries are 9999 and the previous best server is kept |

## Left out

- Process launching, pipes, file handles, `NSLock`, `killExistingProcesses`, the 0.5 s settle sleep and the 2 s wait in `stopBlocking` are outside the model. Their outcomes are inputs: which paths exist, which ports bind, the launch error, and whether the child is alive. The lock is modelled as atomicity of each `LogBuffer` operation; `queueLogs` and `flushLogs` take it twice each and are two events each.
- `isPortAvailable` (the socket bind) is an input predicate over ports.
- `ping`'s network connection is an input: each probe is `Ready(ms)` or `Failed`. Its 2-second timeout cancels the connection without resuming the continuation, so a probe stuck before "ready" or "failed" would never finish and the round would never end. A round that hangs is not modelled; `MeasureAll` requires every probe to finish.
- DnsRanking.MeasureAll models one round on its own. `measureAllLatencies` does not check `isPinging` before it starts, so a second call can empty the latencies while the first round is still collecting; overlapping rounds are not modelled.
- `measureReferenceLatency` and the other managers are not part of this model.
- Time is whole seconds. The crash window compares `now - last > 60` exactly as the source does, but sub-second differences are not represented.
- The log timestamp text comes from `DateFormatter` and is an input string per batch. One timestamp is shared by the whole batch, as in the source.
- The emoji and wording of the supervisor's log lines are abstracted as `Notice` values. Those lines are recorded in the supervisor's journal rather than queued through the log pipeline.
- Supervisor.RestartFires: the restart task reads the stored address (Vexar/Managers/ProcessManager.swift:234) and `start`'s first main-actor step (:63-66) happen as one event, though the hop into `start` lies between them. A user `start` whose first step lands in between would be overwritten by the restart's older address; the model does not reach that state.
- Supervisor.LaunchChild: the part of `start` after the settle sleep is one step, although it returns to the main actor twice (recording the child at Vexar/Managers/ProcessManager.swift:106-111, then marking it running at :126-136). A `stop()` between those two would leave `isRunning` set for a terminated child; the model does not reach that state.
- The child's exit status is an input. Whether the proxy exits non-zero when terminated is a property of the binary; the source expects a clean exit (Vexar/Managers/ProcessManager.swift:181). `LateExitAfterRestartIsACrash` and `StopBlockingExitIsACrash` state what happens when the status is non-zero; with status 0 neither exit is a crash.
- The `(*)` test in the service filter drops the header line; `networksetup` marks a disabled service with a leading `*`, which the test does not catch (`LeadingAsteriskIsKept`).
- Supervisor.Start: the error messages' text and `AlreadyRunning` are not modelled in detail. `AlreadyRunning` is declared in the source but never thrown.
- Supervisor.Terminate: reaching the crash limit only logs a notice. The source has no distinct "crash loop exceeded" state, so the model has none either.
- A failed automatic restart is not retried: the crash count was already raised when the crash was handled, and a start that fails schedules nothing further.
- The best-server tie-break follows the code: the first strict minimum in the dictionary's iteration order, which is an input. It does not follow catalog order. `PickBestUpToTies` shows that the choice differs only between entries of equal latency.
- The fifth resolver is named OpenDNS, but its id in the source is "cisco". The model uses the source's id.
- `stopBlocking` does not set the user-stop flag, unlike `stop`. The model follows the code, and `StopBlockingExitIsACrash` states the consequence.
- SwiftUI change notifications (`objectWillChange`, `@Published`) are not modelled.

=== FILE: dns_catalog.dfy ===
/** The static catalog of DNS resolvers the prober ranks
    (Vexar/Managers/DNS/DNSServer.swift). */
module DnsCatalog {
  import opened Wrappers
  import opened Text

  /** One resolver: a unique `id`, a display `name`, a `host:port`
      `address` and a short `description`. */
  datatype DnsServer = DnsServer(id: string, name: string, address: string, description: string)

  const AllServers: seq<DnsServer> := [
    DnsServer("cloudflare", "Cloudflare", "1.1.1.1:53", "H\U{131}zl\U{131} ve Gizli"),
    DnsServer("google", "Google", "8.8.8.8:53", "G\U{FC}venilir"),
    DnsServer("quad9", "Quad9", "9.9.9.9:53", "G\U{FC}venlik Odakl\U{131}"),
    DnsServer("adguard", "AdGuard", "94.140.14.14:53", "Reklam Engelleyici"),
    DnsServer("cisco", "OpenDNS", "208.67.222.222:53", "Cisco G\U{FC}vencesi")
  ]

  /** The pseudo-entry meaning "let the prober choose"; it has no address. */
  const Automatic: DnsServer :=
    DnsServer("auto", "Otomatik (En H\U{131}zl\U{131})", "", "En iyi sunucuyu se\U{E7}er")

  /** The fallback resolver: the first catalog entry. */
  const DefaultServer: DnsServer := AllServers[0]

  /** The ids of `servers`, in order. */
  function Ids(servers: seq<DnsServer>): (r: seq<string>)
    ensures |r| == |servers|
    ensures forall i :: 0 <= i < |r| ==> r[i] == servers[i].id
  {
    if |servers| == 0 then [] else [servers[0].id] + Ids(servers[1..])
  }

  /** No two entries of `servers` share an id. */
  predicate DistinctIds(servers: seq<DnsServer>) {
    forall i, j :: 0 <= i < j < |servers| ==> servers[i].id != servers[j].id
  }

  /** `p` is the canonical decimal text of a number from 0 to 255. */
  predicate IsOctet(p: string) {
    match ParseDecimal(p)
    case Some(v) => v <= 255 && p == Decimal(v)
    case None => false
  }

  /** `h` is a dotted-quad IPv4 address: four canonical octets separated by
      dots. */
  predicate IsIpv4(h: string) {
    var parts := Components(h, Dot);
    |parts| == 4 && forall i :: 0 <= i < 4 ==> IsOctet(parts[i])
  }

  /** `a` splits at its one colon into a dotted-quad IPv4 address and the
      decimal `port`. */
  predicate IsIpv4Endpoint(a: string, port: nat) {
    var parts := Components(a, Colon);
    |parts| == 2 && IsIpv4(parts[0]) && ParseDecimal(parts[1]) == Some(port)
  }

  /** Dotted-quad text of four octets. */
  function Ipv4Text(a: nat, b: nat, c: nat, d: nat): string {
    Decimal(a) + "." + (Decimal(b) + "." + (Decimal(c) + "." + Decimal(d)))
  }

  /** `a` is the text `<a>.<b>.<c>.<d>:<port>` for some four octets. */
  ghost predicate RendersAsEndpoint(a: string, port: nat) {
    exists o1: nat, o2: nat, o3: nat, o4: nat ::
      o1 <= 255 && o2 <= 255 && o3 <= 255 && o4 <= 255 &&
      a == Ipv4Text(o1, o2, o3, o4) + ":" + Decimal(port)
  }

  lemma DecimalIsOctet(v: nat)
    requires v <= 255
    ensures IsOctet(Decimal(v))
  {
    DecimalRoundTrip(v);
  }

  lemma DecimalHasNoDot(n: nat)
    ensures forall i :: 0 <= i < |Decimal(n)| ==> !IsSep(Dot, Decimal(n)[i])
  {
  }

  lemma DecimalThenDot(n: nat, rest: string)
    ensures Components(Decimal(n) + "." + rest, Dot) == [Decimal(n)] + Components(rest, Dot)
  {
    DecimalHasNoDot(n);
    assert Decimal(n) + "." + rest == Decimal(n) + ['.'] + rest;
    ComponentsAtFirstSeparator(Decimal(n), '.', rest, Dot);
  }

  lemma TwoPieces(c: nat, d: nat)
    ensures Components(Decimal(c) + "." + Decimal(d), Dot) == [Decimal(c), Decimal(d)]
  {
    DecimalHasNoDot(d);
    ComponentsOfPlain(Decimal(d), Dot);
    DecimalThenDot(c, Decimal(d));
  }

  lemma Ipv4TailPieces(b: nat, c: nat, d: nat)
    ensures Components(Decimal(b) + "." + (Decimal(c) + "." + Decimal(d)), Dot) == [Decimal(b), Decimal(c), Decimal(d)]
  {
    TwoPieces(c, d);
    DecimalThenDot(b, Decimal(c) + "." + Decimal(d));
  }

  lemma Ipv4TextPieces(a: nat, b: nat, c: nat, d: nat)
    ensures Components(Ipv4Text(a, b, c, d), Dot) == [Decimal(a), Decimal(b), Decimal(c), Decimal(d)]
  {
    var t1 := Decimal(b) + "." + (Decimal(c) + "." + Decimal(d));
    assert Ipv4Text(a, b, c, d) == Decimal(a) + "." + t1;
    Ipv4TailPieces(b, c, d);
    DecimalThenDot(a, t1);
  }

  /** Four octets rendered with dots form a dotted-quad address. */
  lemma Ipv4TextIsIpv4(a: nat, b: nat, c: nat, d: nat)
    requires a <= 255 && b <= 255 && c <= 255 && d <= 255
    ensures IsIpv4(Ipv4Text(a, b, c, d))
  {
    Ipv4TextPieces(a, b, c, d);
    DecimalIsOctet(a); DecimalIsOctet(b); DecimalIsOctet(c); DecimalIsOctet(d);
  }

  lemma Ipv4TextHasNoColon(a: nat, b: nat, c: nat, d: nat)
    ensures forall i :: 0 <= i < |Ipv4Text(a, b, c, d)| ==> !IsSep(Colon, Ipv4Text(a, b, c, d)[i])
  {
    DecimalHasNoColon(a); DecimalHasNoColon(b); DecimalHasNoColon(c); DecimalHasNoColon(d);
  }

  /** Rendering four octets and a port gives a well-formed endpoint. */
  lemma {:induction false} Ipv4TextIsEndpoint(a: nat, b: nat, c: nat, d: nat, port: nat)
    requires a <= 255 && b <= 255 && c <= 255 && d <= 255
    ensures IsIpv4Endpoint(Ipv4Text(a, b, c, d) + ":" + Decimal(port), port)
  {
    var h := Ipv4Text(a, b, c, d);
    Ipv4TextIsIpv4(a, b, c, d);
    Ipv4TextHasNoColon(a, b, c, d);
    DecimalHasNoColon(port);
    ComponentsOfPlain(Decimal(port), Colon);
    ComponentsAtFirstSeparator(h, ':', Decimal(port), Colon);
    assert h + ":" + Decimal(port) == h + [':'] + Decimal(port);
    DecimalRoundTrip(port);
  }

  /** The catalog lists five resolvers with pairwise-distinct ids. */
  lemma CatalogIds()
    ensures Ids(AllServers) == ["cloudflare", "google", "quad9", "adguard", "cisco"]
    ensures DistinctIds(AllServers)
  {
  }

  /** An address rendered from four octets and a port parses back as an
      endpoint with exactly one colon. */
  lemma RenderedEndpointParses(a: string, port: nat)
    requires RendersAsEndpoint(a, port)
    ensures IsIpv4Endpoint(a, port)
    ensures CountWhere(a, Colon) == 1
  {
    var o1: nat, o2: nat, o3: nat, o4: nat :| o1 <= 255 && o2 <= 255 && o3 <= 255 && o4 <= 255 &&
      a == Ipv4Text(o1, o2, o3, o4) + ":" + Decimal(port);
    Ipv4TextIsEndpoint(o1, o2, o3, o4, port);
    ComponentsCount(a, Colon);
  }

  lemma DecimalOf53()
    ensures Decimal(53) == "53"
  {
  }

  /** The address `<a>.<b>.<c>.<d>:53` renders as an endpoint. */
  lemma LiteralEndpoint(address: string, a: nat, b: nat, c: nat, d: nat)
    requires a <= 255 && b <= 255 && c <= 255 && d <= 255
    requires address == Ipv4Text(a, b, c, d) + ":53"
    ensures RendersAsEndpoint(address, 53)
  {
    DecimalOf53();
    assert address == Ipv4Text(a, b, c, d) + ":" + Decimal(53);
  }

  lemma CloudflareRendersAsEndpoint()
    ensures RendersAsEndpoint(AllServers[0].address, 53)
  {
    assert Decimal(1) == "1";
    assert Ipv4Text(1, 1, 1, 1) == "1.1.1.1";
    LiteralEndpoint(AllServers[0].address, 1, 1, 1, 1);
  }

  lemma GoogleRendersAsEndpoint()
    ensures RendersAsEndpoint(AllServers[1].address, 53)
  {
    assert Decimal(8) == "8";
    assert Ipv4Text(8, 8, 8, 8) == "8.8.8.8";
    LiteralEndpoint(AllServers[1].address, 8, 8, 8, 8);
  }

  lemma Quad9RendersAsEndpoint()
    ensures RendersAsEndpoint(AllServers[2].address, 53)
  {
    assert Decimal(9) == "9";
    assert Ipv4Text(9, 9, 9, 9) == "9.9.9.9";
    LiteralEndpoint(AllServers[2].address, 9, 9, 9, 9);
  }

  lemma AdGuardText()
    ensures Ipv4Text(94, 140, 14, 14) == "94.140.14.14"
  {
    assert Decimal(94) == "94";
    assert Decimal(140) == "140";
    assert Decimal(14) == "14";
  }

  lemma AdGuardRendersAsEndpoint()
    ensures RendersAsEndpoint(AllServers[3].address, 53)
  {
    AdGuardText();
    LiteralEndpoint(AllServers[3].address, 94, 140, 14, 14);
  }

  lemma OpenDnsText()
    ensures Ipv4Text(208, 67, 222, 222) == "208.67.222.222"
  {
    assert Decimal(208) == "208";
    assert Decimal(67) == "67";
    assert Decimal(222) == "222";
  }

  lemma OpenDnsRendersAsEndpoint()
    ensures RendersAsEndpoint(AllServers[4].address, 53)
  {
    OpenDnsText();
    LiteralEndpoint(AllServers[4].address, 208, 67, 222, 222);
  }

  /** Every catalog address is a dotted-quad IPv4 address followed by
      `:53`. */
  lemma CatalogEndpoints()
    ensures forall i | 0 <= i < |AllServers| :: RendersAsEndpoint(AllServers[i].address, 53)
  {
    forall i | 0 <= i < |AllServers|
      ensures RendersAsEndpoint(AllServers[i].address, 53)
    {
      if i == 0 {
        CloudflareRendersAsEndpoint();
      } else if i == 1 {
        GoogleRendersAsEndpoint();
      } else if i == 2 {
        Quad9RendersAsEndpoint();
      } else if i == 3 {
        AdGuardRendersAsEndpoint();
      } else {
        OpenDnsRendersAsEndpoint();
      }
    }
  }

  /** Every catalog address splits at its single colon into a dotted-quad
      address and port 53. */
  lemma CatalogAddressesParse()
    ensures forall i | 0 <= i < |AllServers| ::
      IsIpv4Endpoint(AllServers[i].address, 53) && CountWhere(AllServers[i].address, Colon) == 1
  {
    CatalogEndpoints();
    forall i | 0 <= i < |AllServers|
      ensures IsIpv4Endpoint(AllServers[i].address, 53) && CountWhere(AllServers[i].address, Colon) == 1
    {
      RenderedEndpointParses(AllServers[i].address, 53);
    }
  }

  /** The fallback resolver is the first catalog entry, Cloudflare. */
  lemma DefaultIsCloudflare()
    ensures DefaultServer in AllServers
    ensures DefaultServer.id == "cloudflare" && DefaultServer.address == "1.1.1.1:53"
  {
  }

  /** The automatic pseudo-entry has id "auto" and no address, and its id
      names no catalog resolver. */
  lemma AutomaticIsNotACatalogServer()
    ensures Automatic.id == "auto" && Automatic.address == ""
    ensures Automatic.id !in Ids(AllServers)
    ensures Automatic !in AllServers
  {
    CatalogIds();
  }
}

=== FILE: dns_ranking.dfy ===
/** One latency-ranking round over the resolver catalog
    (Vexar/Managers/DNSManager.swift). The network probe itself is an input:
    each server's probe either becomes ready after some elapsed time or fails. */
module DnsRanking {
  import opened Wrappers
  import opened Text
  import opened DnsCatalog

  /** The latency recorded for a server whose probe failed. */
  const Unreachable: int := 9999

  /** How one probe ended: the connection became ready after `elapsedMs`
      milliseconds, or it failed. */
  datatype Probe = Ready(elapsedMs: int) | Failed

  /** The latency a probe reports: its elapsed time, or the sentinel. */
  function ProbeMs(p: Probe): (ms: int)
    ensures p.Failed? ==> ms == Unreachable
    ensures p.Ready? ==> ms == p.elapsedMs
  {
    match p
    case Ready(e) => e
    case Failed => Unreachable
  }

  /** The host a probe connects to: the address up to its first colon, or
      the whole address when it has none. */
  function HostOf(address: string): (h: string)
    ensures h <= address
    ensures forall j :: 0 <= j < |h| ==> !IsSep(Colon, h[j])
    ensures |h| < |address| ==> address[|h|] == ':'
  {
    Components(address, Colon)[0]
  }

  /** A colon-free host followed by `:` and anything is read back as that
      host. */
  lemma HostOfEndpoint(h: string, rest: string)
    requires forall j :: 0 <= j < |h| ==> !IsSep(Colon, h[j])
    ensures HostOf(h + ":" + rest) == h
  {
    var a := h + ":" + rest;
    var r := HostOf(a);
    assert a[|h|] == ':';
    assert forall j :: 0 <= j < |h| ==> a[j] == h[j] && !IsSep(Colon, a[j]);
    assert |r| == |h|;
  }

  /** An address rendered as `<a>.<b>.<c>.<d>:53` is probed at its
      dotted-quad host, and that host followed by `:53` is the address. */
  lemma EndpointHost(a: string)
    requires RendersAsEndpoint(a, 53)
    ensures IsIpv4(HostOf(a)) && HostOf(a) + ":53" == a
  {
    var o1: nat, o2: nat, o3: nat, o4: nat :| o1 <= 255 && o2 <= 255 && o3 <= 255 && o4 <= 255 &&
      a == Ipv4Text(o1, o2, o3, o4) + ":" + Decimal(53);
    var h := Ipv4Text(o1, o2, o3, o4);
    DecimalOf53();
    assert a == h + ":53";
    RenderedHost(o1, o2, o3, o4, "53");
    Ipv4TextIsIpv4(o1, o2, o3, o4);
  }

  lemma RenderedHost(o1: nat, o2: nat, o3: nat, o4: nat, port: string)
    ensures HostOf(Ipv4Text(o1, o2, o3, o4) + ":" + port) == Ipv4Text(o1, o2, o3, o4)
  {
    Ipv4TextHasNoColon(o1, o2, o3, o4);
    HostOfEndpoint(Ipv4Text(o1, o2, o3, o4), port);
  }

  /** Every catalog server is probed at the dotted-quad host of its address,
      and that host followed by `:53` is the whole address. */
  lemma CatalogProbeHosts()
    ensures forall i | 0 <= i < |AllServers| ::
      IsIpv4(HostOf(AllServers[i].address)) && HostOf(AllServers[i].address) + ":53" == AllServers[i].address
  {
    CatalogEndpoints();
    forall i | 0 <= i < |AllServers|
      ensures IsIpv4(HostOf(AllServers[i].address)) && HostOf(AllServers[i].address) + ":53" == AllServers[i].address
    {
      EndpointHost(AllServers[i].address);
    }
  }

  /** The observable state of the prober. */
  datatype Prober = Prober(
    servers: seq<DnsServer>,
    latencies: map<string, int>,
    bestServer: Option<DnsServer>,
    isPinging: bool)

  /** `completion` lists every index below `n` exactly once: the order in
      which the probes of a round finish. */
  predicate IsPermutation(completion: seq<nat>, n: nat) {
    && |completion| == n
    && (forall k :: 0 <= k < |completion| ==> completion[k] < n)
    && (forall i :: 0 <= i < n ==> i in completion)
  }

  /** The ids of `servers`, as a set. */
  function IdSet(servers: seq<DnsServer>): set<string> {
    set i | 0 <= i < |servers| :: servers[i].id
  }

  /** The latency map after the probes finished in the order `completion`,
      each finishing probe writing its server's entry into a map that was
      empty when the round began. */
  function Collected(servers: seq<DnsServer>, probes: seq<Probe>, completion: seq<nat>): (m: map<string, int>)
    requires |probes| == |servers|
    requires forall k :: 0 <= k < |completion| ==> completion[k] < |servers|
    ensures m.Keys == set k | 0 <= k < |completion| :: servers[completion[k]].id
  {
    if |completion| == 0 then map[]
    else
      var j := completion[|completion| - 1];
      var m := Collected(servers, probes, completion[..|completion| - 1]);
      assert servers[completion[|completion| - 1]].id == servers[j].id;
      m[servers[j].id := ProbeMs(probes[j])]
  }

  /** Each entry of the collected map holds the result of a probe that
      finished for a server with that id. */
  lemma {:induction false} CollectedValues(servers: seq<DnsServer>, probes: seq<Probe>, completion: seq<nat>)
    requires |probes| == |servers|
    requires forall k :: 0 <= k < |completion| ==> completion[k] < |servers|
    ensures forall id :: id in Collected(servers, probes, completion) ==>
      exists k :: 0 <= k < |completion| && servers[completion[k]].id == id
        && Collected(servers, probes, completion)[id] == ProbeMs(probes[completion[k]])
  {
    if |completion| > 0 {
      var last := |completion| - 1;
      var front := completion[..last];
      var j := completion[last];
      CollectedValues(servers, probes, front);
      var m := Collected(servers, probes, completion);
      forall id | id in m
        ensures exists k :: 0 <= k < |completion| && servers[completion[k]].id == id && m[id] == ProbeMs(probes[completion[k]])
      {
        if id == servers[j].id {
          assert servers[completion[last]].id == id && m[id] == ProbeMs(probes[completion[last]]);
        } else {
          var k :| 0 <= k < |front| && servers[front[k]].id == id
            && Collected(servers, probes, front)[id] == ProbeMs(probes[front[k]]);
          assert front[k] == completion[k];
        }
      }
    }
  }

  /** The entries a finished round may pick from: those strictly below the
      sentinel. */
  function Qualifying(latencies: map<string, int>): (q: map<string, int>)
    ensures forall id :: id in q <==> id in latencies && latencies[id] < Unreachable
    ensures forall id :: id in q ==> q[id] == latencies[id]
  {
    map id | id in latencies && latencies[id] < Unreachable :: latencies[id]
  }

  /** `order` visits exactly the keys of `m`: the unspecified iteration order
      of a Swift dictionary. */
  predicate Enumerates(order: seq<string>, m: map<string, int>) {
    && (forall i :: 0 <= i < |order| ==> order[i] in m)
    && (forall id :: id in m ==> id in order)
  }

  /** Position of the entry `min(by: <)` returns when it visits `order`: a
      minimal one, and the first of the minimal ones. */
  function MinIndex(m: map<string, int>, order: seq<string>): (k: Option<nat>)
    requires forall i :: 0 <= i < |order| ==> order[i] in m
    ensures k.None? <==> |order| == 0
    ensures k.Some? ==> k.value < |order|
    ensures k.Some? ==> forall i :: 0 <= i < |order| ==> m[order[k.value]] <= m[order[i]]
    ensures k.Some? ==> forall i :: 0 <= i < k.value ==> m[order[i]] > m[order[k.value]]
  {
    if |order| == 0 then None
    else
      var last := |order| - 1;
      match MinIndex(m, order[..last])
      case None => Some(last)
      case Some(b) =>
        assert order[..last][b] == order[b];
        assert forall i :: 0 <= i < last ==> order[..last][i] == order[i];
        if m[order[last]] < m[order[b]] then Some(last) else Some(b)
  }

  /** The id the round picks: a minimal qualifying entry, reached by
      iterating the qualifying entries in the order `order`. */
  function PickBest(latencies: map<string, int>, order: seq<string>): (best: Option<string>)
    requires Enumerates(order, Qualifying(latencies))
    ensures best.None? <==> forall id :: id in latencies ==> latencies[id] >= Unreachable
    ensures best.Some? ==> best.value in latencies && latencies[best.value] < Unreachable
    ensures best.Some? ==> forall id :: id in latencies && latencies[id] < Unreachable ==>
      latencies[best.value] <= latencies[id]
  {
    var q := Qualifying(latencies);
    match MinIndex(q, order)
    case None =>
      assert forall id :: id in latencies ==> latencies[id] >= Unreachable by {
        forall id | id in latencies
          ensures latencies[id] >= Unreachable
        {
          assert id !in order;
          assert id !in q;
        }
      }
      None
    case Some(k) =>
      assert forall id :: id in q ==> q[order[k]] <= q[id] by {
        forall id | id in q
          ensures q[order[k]] <= q[id]
        {
          var i :| 0 <= i < |order| && order[i] == id;
        }
      }
      Some(order[k])
  }

  /** Two iteration orders can pick different ids only between entries of
      equal latency: the choice is unique up to ties. */
  lemma PickBestUpToTies(latencies: map<string, int>, order1: seq<string>, order2: seq<string>)
    requires Enumerates(order1, Qualifying(latencies))
    requires Enumerates(order2, Qualifying(latencies))
    ensures PickBest(latencies, order1).Some? <==> PickBest(latencies, order2).Some?
    ensures PickBest(latencies, order1).Some? ==>
      latencies[PickBest(latencies, order1).value] == latencies[PickBest(latencies, order2).value]
  {
  }

  /** The first server of `servers` whose id is `id`, as `first(where:)`. */
  function FirstWithId(servers: seq<DnsServer>, id: string): (r: Option<DnsServer>)
    ensures r.None? <==> forall i :: 0 <= i < |servers| ==> servers[i].id != id
    ensures r.Some? ==> r.value.id == id
    ensures r.Some? ==> exists k :: 0 <= k < |servers| && servers[k] == r.value && forall j :: 0 <= j < k ==> servers[j].id != id
  {
    if |servers| == 0 then None
    else if servers[0].id == id then Some(servers[0])
    else FirstWithId(servers[1..], id)
  }

  /** Starting a round: the prober reports that it is busy and forgets the
      previous round's latencies. */
  function BeginRound(p: Prober): (r: Prober)
    ensures r.isPinging && r.latencies == map[]
    ensures r.servers == p.servers && r.bestServer == p.bestServer
  {
    p.(isPinging := true, latencies := map[])
  }

  /** `server` is a member of `servers` and its latency is minimal among the
      entries below the sentinel. */
  predicate IsBestChoice(servers: seq<DnsServer>, latencies: map<string, int>, server: DnsServer) {
    && server in servers
    && server.id in latencies
    && latencies[server.id] < Unreachable
    && (forall id :: id in latencies && latencies[id] < Unreachable ==> latencies[server.id] <= latencies[id])
  }

  /** Ending a round: when some latency is below the sentinel, the best server
      becomes the first server carrying the id of a minimal such entry;
      otherwise it is left as it was. The prober is no longer busy. */
  function FinishRound(p: Prober, order: seq<string>): (r: Prober)
    requires Enumerates(order, Qualifying(p.latencies))
    ensures !r.isPinging && r.servers == p.servers && r.latencies == p.latencies
    ensures (forall id :: id in p.latencies ==> p.latencies[id] >= Unreachable) ==> r.bestServer == p.bestServer
    ensures (exists id :: id in p.latencies && p.latencies[id] < Unreachable) && p.latencies.Keys <= IdSet(p.servers) ==>
      r.bestServer.Some? && IsBestChoice(p.servers, p.latencies, r.bestServer.value)
  {
    match PickBest(p.latencies, order)
    case Some(id) =>
      assert id in IdSet(p.servers) ==> exists i :: 0 <= i < |p.servers| && p.servers[i].id == id;
      p.(bestServer := FirstWithId(p.servers, id), isPinging := false)
    case None =>
      p.(isPinging := false)
  }

  /** Every server's probe finishes exactly once, so every server id gets an
      entry. */
  lemma CollectedCoversAll(servers: seq<DnsServer>, probes: seq<Probe>, completion: seq<nat>)
    requires |probes| == |servers|
    requires IsPermutation(completion, |servers|)
    ensures Collected(servers, probes, completion).Keys == IdSet(servers)
  {
    forall id | id in IdSet(servers)
      ensures id in Collected(servers, probes, completion)
    {
      var i :| 0 <= i < |servers| && servers[i].id == id;
      assert i in completion;
      var k :| 0 <= k < |completion| && completion[k] == i;
    }
  }

  /** A whole round `measureAllLatencies`: begin, collect one entry per
      server as the probes finish in the order `completion`, then pick the
      best server visiting the qualifying entries in the order `order`. */
  function MeasureAll(p: Prober, probes: seq<Probe>, completion: seq<nat>, order: seq<string>): (r: Prober)
    requires |probes| == |p.servers|
    requires IsPermutation(completion, |p.servers|)
    requires Enumerates(order, Qualifying(Collected(p.servers, probes, completion)))
    ensures !r.isPinging && r.servers == p.servers
    ensures r.latencies.Keys == IdSet(p.servers)
    ensures forall id :: id in r.latencies ==>
      exists i :: 0 <= i < |p.servers| && p.servers[i].id == id && r.latencies[id] == ProbeMs(probes[i])
    ensures (forall id :: id in r.latencies ==> r.latencies[id] >= Unreachable) ==> r.bestServer == p.bestServer
    ensures (exists id :: id in r.latencies && r.latencies[id] < Unreachable) ==>
      r.bestServer.Some? && IsBestChoice(p.servers, r.latencies, r.bestServer.value)
  {
    var started := BeginRound(p);
    CollectedCoversAll(p.servers, probes, completion);
    CollectedValues(p.servers, probes, completion);
    var collected := started.(latencies := Collected(p.servers, probes, completion));
    FinishRound(collected, order)
  }

  /** With pairwise-distinct ids, as in the catalog, each server's entry is
      exactly its own probe's result, and a server whose probe failed is
      never chosen as the new best server. */
  lemma MeasureAllDistinctIds(p: Prober, probes: seq<Probe>, completion: seq<nat>, order: seq<string>)
    requires |probes| == |p.servers|
    requires IsPermutation(completion, |p.servers|)
    requires Enumerates(order, Qualifying(Collected(p.servers, probes, completion)))
    requires DistinctIds(p.servers)
    ensures forall i :: 0 <= i < |p.servers| ==>
      p.servers[i].id in MeasureAll(p, probes, completion, order).latencies &&
      MeasureAll(p, probes, completion, order).latencies[p.servers[i].id] == ProbeMs(probes[i])
    ensures forall i :: 0 <= i < |p.servers| && probes[i].Failed? ==>
      (MeasureAll(p, probes, completion, order).bestServer == Some(p.servers[i]) ==> p.bestServer == Some(p.servers[i]))
  {
    var r := MeasureAll(p, probes, completion, order);
    forall i | 0 <= i < |p.servers|
      ensures p.servers[i].id in r.latencies && r.latencies[p.servers[i].id] == ProbeMs(probes[i])
    {
      var id := p.servers[i].id;
      assert id in IdSet(p.servers);
      var j :| 0 <= j < |p.servers| && p.servers[j].id == id && r.latencies[id] == ProbeMs(probes[j]);
      assert j == i;
    }
  }

  /** A round in which every probe fails records the sentinel for every
      server and keeps the previous best server. */
  lemma AllProbesFailedKeepsBest(p: Prober, probes: seq<Probe>, completion: seq<nat>, order: seq<string>)
    requires |probes| == |p.servers|
    requires IsPermutation(completion, |p.servers|)
    requires Enumerates(order, Qualifying(Collected(p.servers, probes, completion)))
    requires forall i :: 0 <= i < |probes| ==> probes[i].Failed?
    ensures forall id :: id in MeasureAll(p, probes, completion, order).latencies ==>
      MeasureAll(p, probes, completion, order).latencies[id] == Unreachable
    ensures MeasureAll(p, probes, completion, order).bestServer == p.bestServer
  {
    var r := MeasureAll(p, probes, completion, order);
    forall id | id in r.latencies
      ensures r.latencies[id] == Unreachable
    {
      var i :| 0 <= i < |p.servers| && p.servers[i].id == id && r.latencies[id] == ProbeMs(probes[i]);
    }
  }
}

=== FILE: launch.dfy ===
/** What `start` needs before it can launch the proxy binary
    (Vexar/Managers/ProcessManager.swift): the binary's location, a free
    listening port, and the argument vector. File-system checks and the
    socket bind are inputs: a `fileExists` predicate over paths and an
    `isPortAvailable` predicate over ports. */
module Launch {
  import opened Wrappers
  import opened Text

  /** The errors `start` can throw. `AlreadyRunning` is declared by the
      source but never thrown. */
  datatype ProcessError = BinaryNotFound | AlreadyRunning | StartFailed(reason: string) | NoPortsAvailable

  const FirstPort: nat := 8080
  const LastPort: nat := 8090

  const HomebrewArmPath: string := "/opt/homebrew/bin/spoofdpi"
  const HomebrewIntelPath: string := "/usr/local/bin/spoofdpi"

  /** The paths searched for the binary, in order: the two Homebrew
      locations, then the copy bundled with the app when the bundle has one. */
  function BinaryCandidates(bundled: Option<string>): (paths: seq<string>)
    ensures |paths| == (if bundled.Some? then 3 else 2)
    ensures paths[0] == HomebrewArmPath && paths[1] == HomebrewIntelPath
    ensures bundled.Some? ==> paths[2] == bundled.value
  {
    [HomebrewArmPath, HomebrewIntelPath] + match bundled { case Some(p) => [p] case None => [] }
  }

  /** The first path in `paths` that exists. */
  function FindBinary(paths: seq<string>, fileExists: string -> bool): (r: Option<string>)
    ensures r.None? <==> forall i :: 0 <= i < |paths| ==> !fileExists(paths[i])
    ensures r.Some? ==> fileExists(r.value)
    ensures r.Some? ==> exists k :: 0 <= k < |paths| && paths[k] == r.value && (forall j :: 0 <= j < k ==> !fileExists(paths[j]))
  {
    if |paths| == 0 then None
    else if fileExists(paths[0]) then Some(paths[0])
    else
      var r := FindBinary(paths[1..], fileExists);
      if r.Some? then
        var k :| 0 <= k < |paths[1..]| && paths[1..][k] == r.value && (forall j :: 0 <= j < k ==> !fileExists(paths[1..][j]));
        assert paths[k + 1] == r.value;
        r
      else
        r
  }

  /** The first available port from `from` up to `LastPort`. */
  function ScanPorts(from: nat, isPortAvailable: nat -> bool): (r: Result<nat, ProcessError>)
    requires FirstPort <= from
    ensures r.Success? ==> from <= r.value <= LastPort && isPortAvailable(r.value)
    ensures r.Success? ==> forall q :: from <= q < r.value ==> !isPortAvailable(q)
    ensures r.Failure? ==> r.error == NoPortsAvailable && forall q :: from <= q <= LastPort ==> !isPortAvailable(q)
    decreases LastPort + 1 - from
  {
    if from > LastPort then Failure(NoPortsAvailable)
    else if isPortAvailable(from) then Success(from)
    else ScanPorts(from + 1, isPortAvailable)
  }

  /** `findAvailablePort`: scans 8080 through 8090 in ascending order and
      returns the first port the availability check accepts, or fails with
      `NoPortsAvailable` exactly when none does. */
  method FindAvailablePort(isPortAvailable: nat -> bool) returns (r: Result<nat, ProcessError>)
    ensures r.Success? ==> FirstPort <= r.value <= LastPort && isPortAvailable(r.value)
    ensures r.Success? ==> forall q :: FirstPort <= q < r.value ==> !isPortAvailable(q)
    ensures r.Failure? <==> forall q :: FirstPort <= q <= LastPort ==> !isPortAvailable(q)
    ensures r.Failure? ==> r.error == NoPortsAvailable
    ensures r == ScanPorts(FirstPort, isPortAvailable)
  {
    var port := FirstPort;
    while port <= LastPort
      invariant FirstPort <= port <= LastPort + 1
      invariant forall q :: FirstPort <= q < port ==> !isPortAvailable(q)
      invariant ScanPorts(FirstPort, isPortAvailable) == ScanPorts(port, isPortAvailable)
    {
      if isPortAvailable(port) {
        return Success(port);
      }
      port := port + 1;
    }
    return Failure(NoPortsAvailable);
  }

  const LoopbackHost: string := "127.0.0.1"

  /** The `--listen-addr` value for `port`. */
  function ListenAddress(port: nat): string {
    LoopbackHost + ":" + Decimal(port)
  }

  /** The argument vector the binary is launched with. The DNS flag is added
      only for a present, non-empty address. */
  function ProcessArguments(port: nat, dns: Option<string>): (args: seq<string>)
    ensures |args| == 5 || |args| == 7
    ensures args[..5] == ["--listen-addr", ListenAddress(port), "--log-level", "info", "--system-proxy"]
    ensures |args| == 7 <==> dns.Some? && dns.value != ""
    ensures |args| == 7 ==> args[5] == "--dns-addr" && args[6] == dns.value
  {
    var base := ["--listen-addr", ListenAddress(port), "--log-level", "info", "--system-proxy"];
    match dns
    case Some(d) => if d != "" then base + ["--dns-addr", d] else base
    case None => base
  }

  /** Reads the port and DNS address back out of an argument vector of the
      shape `ProcessArguments` builds. */
  function ReadArguments(args: seq<string>): Option<(nat, Option<string>)> {
    if (|args| == 5 || (|args| == 7 && args[5] == "--dns-addr"))
      && args[0] == "--listen-addr" && args[2..5] == ["--log-level", "info", "--system-proxy"]
      && |args[1]| > |LoopbackHost| + 1 && args[1][..|LoopbackHost| + 1] == LoopbackHost + ":"
    then
      match ParseDecimal(args[1][|LoopbackHost| + 1..])
      case Some(port) => Some((port, if |args| == 7 then Some(args[6]) else None))
      case None => None
    else None
  }

  /** Building the arguments loses nothing but the difference between a
      missing and an empty DNS address: reading them back gives the port,
      and the DNS address exactly when it was present and non-empty. */
  lemma ArgumentsRoundTrip(port: nat, dns: Option<string>)
    ensures ReadArguments(ProcessArguments(port, dns)) ==
      Some((port, if dns.Some? && dns.value != "" then dns else None))
  {
    var args := ProcessArguments(port, dns);
    assert args[1] == ListenAddress(port);
    assert args[1][..|LoopbackHost| + 1] == LoopbackHost + ":";
    assert args[1][|LoopbackHost| + 1..] == Decimal(port);
    DecimalRoundTrip(port);
    assert args[2..5] == ["--log-level", "info", "--system-proxy"];
  }
}

=== FILE: log_pipeline.dfy ===
/** The supervisor's log path (Vexar/Managers/ProcessManager.swift): the
    child's output is cut into lines, queued in a lock-protected buffer, and
    flushed to the visible log at most once per throttle interval; the
    visible log is stamped and kept to a bounded length. */
module LogPipeline {
  import opened Wrappers
  import opened Sequences
  import opened Text

  /** Above this many entries the log is trimmed ... */
  const MaxLogs: nat := 300
  /** ... down to this many, the newest ones. */
  const KeptLogs: nat := 200

  /** Each element of `lines` with `prefix` in front. */
  function Prefixed(prefix: string, lines: seq<string>): (r: seq<string>)
    ensures |r| == |lines|
    ensures forall i :: 0 <= i < |r| ==> |r[i]| == |prefix| + |lines[i]| && r[i][..|prefix|] == prefix
  {
    if |lines| == 0 then [] else [prefix + lines[0]] + Prefixed(prefix, lines[1..])
  }

  /** Dropping the prefix again gives back each original line. */
  lemma {:induction false} PrefixedRoundTrip(prefix: string, lines: seq<string>)
    ensures forall i :: 0 <= i < |lines| ==> Prefixed(prefix, lines)[i][|prefix|..] == lines[i]
  {
    if |lines| > 0 {
      PrefixedRoundTrip(prefix, lines[1..]);
      assert (prefix + lines[0])[|prefix|..] == lines[0];
      forall i | 1 <= i < |lines|
        ensures Prefixed(prefix, lines)[i][|prefix|..] == lines[i]
      {
        assert Prefixed(prefix, lines)[i] == Prefixed(prefix, lines[1..])[i - 1];
      }
    }
  }

  lemma {:induction false} PrefixedAppend(prefix: string, a: seq<string>, b: seq<string>)
    ensures Prefixed(prefix, a + b) == Prefixed(prefix, a) + Prefixed(prefix, b)
  {
    if |a| == 0 {
      assert a + b == b;
    } else {
      assert (a + b)[1..] == a[1..] + b;
      PrefixedAppend(prefix, a[1..], b);
    }
  }

  function KeepNonEmpty(): string -> bool {
    (x: string) => |x| > 0
  }

  /** A chunk of output split at every newline character, empty pieces
      dropped. Nothing but the newlines is lost. */
  function SplitLines(s: string): (r: seq<string>)
    ensures forall i :: 0 <= i < |r| ==> |r[i]| > 0
    ensures forall i, j :: 0 <= i < |r| && 0 <= j < |r[i]| ==> !IsNewline(r[i][j])
    ensures Flatten(r) == Strip(s, Newlines)
    ensures |r| <= CountWhere(s, Newlines) + 1
  {
    var parts := Components(s, Newlines);
    var r := Filter(parts, KeepNonEmpty());
    ComponentsArePlain(s, Newlines);
    ComponentsFlatten(s, Newlines);
    ComponentsCount(s, Newlines);
    FlattenDropsEmpty(parts, KeepNonEmpty());
    assert forall i, j :: 0 <= i < |r| && 0 <= j < |r[i]| ==> !IsNewline(r[i][j]) by {
      forall i, j | 0 <= i < |r| && 0 <= j < |r[i]|
        ensures !IsNewline(r[i][j])
      {
        var k :| 0 <= k < |parts| && parts[k] == r[i];
        assert !IsSep(Newlines, parts[k][j]);
      }
    }
    r
  }

  /** Text without newlines that is not empty is a single line. */
  lemma SplitLinesOfPlain(s: string)
    requires |s| > 0 && forall i :: 0 <= i < |s| ==> !IsNewline(s[i])
    ensures SplitLines(s) == [s]
  {
    ComponentsOfPlain(s, Newlines);
    assert Filter([s], KeepNonEmpty()) == [s] + Filter([s][1..], KeepNonEmpty());
  }

  /** Splitting text made of newline-free lines joined by line feeds gives
      back exactly its non-empty lines, in order: the text is cut at the
      newlines and nowhere else. */
  lemma SplitLinesOfJoin(lines: seq<string>)
    requires forall i :: 0 <= i < |lines| ==> IsPlainLine(lines[i])
    ensures SplitLines(JoinLines(lines)) == Filter(lines, KeepNonEmpty())
  {
    if |lines| == 0 {
      ComponentsOfPlain("", Newlines);
      assert !KeepNonEmpty()("");
      assert Filter([""], KeepNonEmpty()) == Filter([""][1..], KeepNonEmpty());
    } else {
      JoinLinesRoundTrip(lines);
    }
  }

  /** Splitting stops at every newline character, whichever it is: the
      text before the first one gives at most one line, and the rest is
      split on its own. */
  lemma SplitLinesAtNewline(a: string, c: char, b: string)
    requires IsPlainLine(a) && IsNewline(c)
    ensures SplitLines(a + [c] + b) == Filter([a], KeepNonEmpty()) + SplitLines(b)
  {
    ComponentsAtFirstSeparator(a, c, b, Newlines);
    FilterAppend([a], Components(b, Newlines), KeepNonEmpty());
  }

  /** The output handler: an empty or undecodable chunk (`None`) queues
      nothing; a decoded chunk queues its prefixed lines, possibly none. */
  function ReadOutput(prefix: string, chunk: Option<string>): (r: Option<seq<string>>)
    ensures chunk.None? <==> r.None?
    ensures chunk.Some? ==>
      && |r.value| == |SplitLines(chunk.value)|
      && forall i :: 0 <= i < |r.value| ==>
           |r.value[i]| >= |prefix| && r.value[i][..|prefix|] == prefix && r.value[i][|prefix|..] == SplitLines(chunk.value)[i]
  {
    match chunk
    case None => None
    case Some(s) =>
      PrefixedRoundTrip(prefix, SplitLines(s));
      Some(Prefixed(prefix, SplitLines(s)))
  }

  /** `LogBuffer`: the pending lines and whether a flush is scheduled. */
  datatype LogBuffer = LogBuffer(lines: seq<string>, flushPending: bool)

  function Append(b: LogBuffer, lines: seq<string>): (r: LogBuffer)
    ensures |r.lines| == |b.lines| + |lines|
    ensures r.lines[..|b.lines|] == b.lines && r.lines[|b.lines|..] == lines
    ensures r.flushPending == b.flushPending
  {
    b.(lines := b.lines + lines)
  }

  /** Hands out everything buffered, in order, and empties the buffer. */
  function TakeAll(b: LogBuffer): (r: (seq<string>, LogBuffer))
    ensures r.0 + r.1.lines == b.lines && r.1.lines == []
    ensures r.1.flushPending == b.flushPending
  {
    (b.lines, b.(lines := []))
  }

  function SetFlushPending(b: LogBuffer, value: bool): (r: LogBuffer)
    ensures r.flushPending == value && r.lines == b.lines
  {
    b.(flushPending := value)
  }

  /** Test-and-set of the pending flag: true exactly for the caller that
      found it clear. */
  function CheckAndSetPending(b: LogBuffer): (r: (bool, LogBuffer))
    ensures r.0 <==> !b.flushPending
    ensures r.1.flushPending && r.1.lines == b.lines
  {
    if b.flushPending then (false, b) else (true, b.(flushPending := true))
  }

  /** `batchAppendLogs`: every message gets the stamp `[ts] ` and goes to the
      end of the log; a log longer than 300 entries is cut to its newest
      200. */
  function BatchAppendLogs(logs: seq<string>, messages: seq<string>, ts: string): (r: seq<string>)
    ensures |r| <= MaxLogs
    ensures |logs| + |messages| <= MaxLogs ==> r == logs + Prefixed("[" + ts + "] ", messages)
    ensures |logs| + |messages| > MaxLogs ==> |r| == KeptLogs
    ensures exists k :: 0 <= k <= |logs| + |messages| && r == (logs + Prefixed("[" + ts + "] ", messages))[k..]
    ensures forall i :: 0 <= i < |messages| && |messages| - i <= |r| ==>
      r[|r| - |messages| + i] == "[" + ts + "] " + messages[i]
  {
    var all := logs + Prefixed("[" + ts + "] ", messages);
    var k := if |all| > MaxLogs then |all| - KeptLogs else 0;
    var r := all[k..];
    assert forall i :: 0 <= i < |messages| ==> Prefixed("[" + ts + "] ", messages)[i] == "[" + ts + "] " + messages[i] by {
      PrefixedRoundTrip("[" + ts + "] ", messages);
    }
    r
  }

  /** The whole path: the buffer, the `queueLogs` calls that have appended
      their lines and not yet tested the pending flag (the two steps take
      the lock separately), the flushes scheduled on the main queue and
      not yet run, the lines a running flush has taken (`draining`),
      the batches handed to the main actor and not yet appended, and the
      visible log. A flush is split in two steps because it takes the
      lines and clears the pending flag under two separate lock
      acquisitions. */
  datatype Pipeline = Pipeline(
    buffer: LogBuffer,
    appended: nat,
    scheduled: nat,
    draining: Option<seq<string>>,
    inFlight: seq<seq<string>>,
    logs: seq<string>)

  const Empty: Pipeline := Pipeline(LogBuffer([], false), 0, 0, None, [], [])

  /** Number of flushes scheduled or running. */
  function Outstanding(p: Pipeline): nat {
    p.scheduled + if p.draining.Some? then 1 else 0
  }

  /** At most one flush is outstanding, and the pending flag is set exactly
      while one is; every batch in flight is non-empty. */
  predicate Valid(p: Pipeline) {
    && Outstanding(p) <= 1
    && (p.buffer.flushPending <==> Outstanding(p) == 1)
    && (forall i :: 0 <= i < |p.inFlight| ==> |p.inFlight[i]| > 0)
  }

  /** Every line queued and not yet in the visible log, oldest first. */
  function Undelivered(p: Pipeline): seq<string> {
    Flatten(p.inFlight) + p.draining.GetOr([]) + p.buffer.lines
  }

  /** First half of `queueLogs`: the lines go to the end of the buffer. */
  function QueueAppend(p: Pipeline, lines: seq<string>): (r: Pipeline)
    ensures Valid(p) ==> Valid(r)
    ensures Undelivered(r) == Undelivered(p) + lines
    ensures r.appended == p.appended + 1
    ensures r.buffer.flushPending == p.buffer.flushPending && r.scheduled == p.scheduled
    ensures r.draining == p.draining && r.inFlight == p.inFlight && r.logs == p.logs
  {
    p.(buffer := Append(p.buffer, lines), appended := p.appended + 1)
  }

  /** Second half of `queueLogs`: a caller that has appended tests and sets
      the pending flag, and schedules a flush when it found the flag clear.
      With no such caller nothing happens. */
  function QueueCheck(p: Pipeline): (r: Pipeline)
    ensures Valid(p) ==> Valid(r)
    ensures Undelivered(r) == Undelivered(p) && r.buffer.lines == p.buffer.lines
    ensures r.draining == p.draining && r.inFlight == p.inFlight && r.logs == p.logs
    ensures p.appended > 0 ==>
      && r.appended == p.appended - 1 && r.buffer.flushPending
      && r.scheduled == p.scheduled + (if p.buffer.flushPending then 0 else 1)
    ensures p.appended == 0 ==> r == p
  {
    if p.appended == 0 then p
    else
      var checked := CheckAndSetPending(p.buffer);
      p.(buffer := checked.1, appended := p.appended - 1,
         scheduled := p.scheduled + if checked.0 then 1 else 0)
  }

  /** `queueLogs` without another thread running between its two steps:
      the lines join the stream and a flush is scheduled unless one is
      already pending. */
  function Queue(p: Pipeline, lines: seq<string>): (r: Pipeline)
    ensures Valid(p) ==> Valid(r)
    ensures Undelivered(r) == Undelivered(p) + lines
    ensures r.buffer.lines == p.buffer.lines + lines && r.buffer.flushPending
    ensures r.scheduled == p.scheduled + (if p.buffer.flushPending then 0 else 1)
    ensures r.appended == p.appended
    ensures r.draining == p.draining && r.inFlight == p.inFlight && r.logs == p.logs
  {
    QueueCheck(QueueAppend(p, lines))
  }

  /** First half of `flushLogs`: a scheduled flush runs and takes every
      buffered line. */
  function FlushBegins(p: Pipeline): (r: Pipeline)
    ensures Valid(p) ==> Valid(r)
    ensures Undelivered(r) == Undelivered(p)
    ensures p.scheduled > 0 && p.draining.None? ==> r.draining == Some(p.buffer.lines) && r.buffer.lines == []
    ensures !(p.scheduled > 0 && p.draining.None?) ==> r == p
    ensures r.buffer.flushPending == p.buffer.flushPending
    ensures r == p.(buffer := r.buffer, scheduled := r.scheduled, draining := r.draining)
  {
    if p.scheduled == 0 || p.draining.Some? then p
    else
      var take := TakeAll(p.buffer);
      p.(buffer := take.1, scheduled := p.scheduled - 1, draining := Some(take.0))
  }

  /** Second half of `flushLogs`: the pending flag is cleared and the taken
      lines, unless there are none, go to the main actor as one batch. */
  function FlushEnds(p: Pipeline): (r: Pipeline)
    ensures Valid(p) ==> Valid(r)
    ensures Undelivered(r) == Undelivered(p)
    ensures p.draining.Some? ==>
      && !r.buffer.flushPending && r.draining.None? && r.buffer.lines == p.buffer.lines
      && r.inFlight == p.inFlight + (if |p.draining.value| == 0 then [] else [p.draining.value])
    ensures p.draining.None? ==> r == p
    ensures r.buffer.lines == p.buffer.lines
    ensures r == p.(buffer := r.buffer, draining := r.draining, inFlight := r.inFlight)
  {
    match p.draining
    case None => p
    case Some(taken) =>
      FlattenAppend(p.inFlight, [taken]);
      assert Flatten([taken]) == taken + Flatten([taken][1..]);
      p.(buffer := SetFlushPending(p.buffer, false), draining := None,
         inFlight := if |taken| == 0 then p.inFlight else p.inFlight + [taken])
  }

  /** The main actor appends the oldest batch in flight, stamped with `ts`. */
  function Deliver(p: Pipeline, ts: string): (r: Pipeline)
    ensures Valid(p) ==> Valid(r)
    ensures |p.inFlight| > 0 ==>
      && r.logs == BatchAppendLogs(p.logs, p.inFlight[0], ts)
      && r.inFlight == p.inFlight[1..]
      && p.inFlight[0] + Undelivered(r) == Undelivered(p)
    ensures |p.inFlight| == 0 ==> r == p
    ensures r == p.(inFlight := r.inFlight, logs := r.logs)
    ensures |r.logs| <= MaxLogs || r.logs == p.logs
  {
    if |p.inFlight| == 0 then p
    else p.(logs := BatchAppendLogs(p.logs, p.inFlight[0], ts), inFlight := p.inFlight[1..])
  }

  /** `clearLogs`: empties the visible log; lines still on their way are
      not affected and arrive later. */
  function ClearLogs(p: Pipeline): (r: Pipeline)
    ensures Valid(p) ==> Valid(r)
    ensures r.logs == [] && Undelivered(r) == Undelivered(p)
    ensures r.buffer == p.buffer && r.scheduled == p.scheduled && r.inFlight == p.inFlight
    ensures r == p.(logs := [])
  {
    p.(logs := [])
  }

  /** `addLog`: a single message takes the same path as the child's
      output. */
  function AddLog(p: Pipeline, message: string): (r: Pipeline)
    ensures Valid(p) ==> Valid(r)
    ensures Undelivered(r) == Undelivered(p) + [message]
    ensures r == Queue(p, [message])
    ensures r.logs == p.logs && r.buffer.lines == p.buffer.lines + [message]
  {
    Queue(p, [message])
  }

  /** A line queued while a flush is between taking the buffer and clearing
      the pending flag finds the flag set and schedules nothing; once the
      flush ends, the line sits in the buffer with no flush outstanding,
      and stays there until something else is queued. */
  lemma StrandedLines(p: Pipeline, lines: seq<string>)
    requires Valid(p) && p.draining.Some? && |lines| > 0
    ensures
      var r := FlushEnds(Queue(p, lines));
      && Valid(r) && Outstanding(r) == 0 && !r.buffer.flushPending
      && r.buffer.lines == p.buffer.lines + lines
      && FlushBegins(r) == r
  {
  }

  /** A flush that runs between the two steps of `queueLogs` takes the new
      lines with it; the flag test that follows finds the flag clear and
      schedules a second flush, which finds nothing to send. */
  lemma LateCheckSchedulesEmptyFlush(p: Pipeline, lines: seq<string>)
    requires Valid(p) && p.scheduled == 1 && p.draining.None? && p.appended == 0
    ensures
      var taken := FlushEnds(FlushBegins(QueueAppend(p, lines)));
      var checked := QueueCheck(taken);
      && taken.inFlight == p.inFlight + (if |p.buffer.lines + lines| == 0 then [] else [p.buffer.lines + lines])
      && checked.scheduled == 1 && checked.buffer.lines == []
      && FlushEnds(FlushBegins(checked)).inFlight == taken.inFlight
      && Outstanding(FlushEnds(FlushBegins(checked))) == 0
  {
  }

  /** Queuing every chunk in turn. */
  function QueueAll(p: Pipeline, chunks: seq<seq<string>>): (r: Pipeline)
    ensures Valid(p) ==> Valid(r)
    ensures Undelivered(r) == Undelivered(p) + Flatten(chunks)
    decreases |chunks|
  {
    if |chunks| == 0 then p
    else
      var q := Queue(p, chunks[0]);
      var r := QueueAll(q, chunks[1..]);
      assert Undelivered(r) == Undelivered(p) + Flatten(chunks) by {
        assert Undelivered(r) == Undelivered(q) + Flatten(chunks[1..]);
        assert Undelivered(q) == Undelivered(p) + chunks[0];
        assert Flatten(chunks) == chunks[0] + Flatten(chunks[1..]);
      }
      r
  }

  /** Whatever is queued from an idle pipeline before the throttled flush
      runs arrives as one batch. */
  lemma {:induction false} QueuedTogetherFlushTogether(p: Pipeline, chunks: seq<seq<string>>)
    requires Valid(p) && Outstanding(p) == 0 && p.buffer.lines == []
    requires |chunks| > 0 && |Flatten(chunks)| > 0
    ensures FlushEnds(FlushBegins(QueueAll(p, chunks))).inFlight == p.inFlight + [Flatten(chunks)]
  {
    QueueAllFromIdle(p, chunks);
  }

  lemma {:induction false} QueueAllFromIdle(p: Pipeline, chunks: seq<seq<string>>)
    requires Valid(p) && Outstanding(p) == 0 && p.buffer.lines == []
    requires |chunks| > 0
    ensures
      var r := QueueAll(p, chunks);
      r.scheduled == 1 && r.draining.None? && r.inFlight == p.inFlight && r.buffer.lines == Flatten(chunks)
  {
    var q := Queue(p, chunks[0]);
    assert q.scheduled == 1 && q.buffer.flushPending && q.buffer.lines == chunks[0];
    QueueAllWhilePending(q, chunks[1..]);
  }

  lemma {:induction false} QueueAllWhilePending(p: Pipeline, chunks: seq<seq<string>>)
    requires p.buffer.flushPending
    ensures
      var r := QueueAll(p, chunks);
      && r.scheduled == p.scheduled && r.draining == p.draining && r.inFlight == p.inFlight
      && r.buffer.lines == p.buffer.lines + Flatten(chunks) && r.buffer.flushPending
    decreases |chunks|
  {
    if |chunks| > 0 {
      QueueAllWhilePending(Queue(p, chunks[0]), chunks[1..]);
    }
  }

  datatype Event =
    | Output(prefix: string, chunk: Option<string>)
    | Message(text: string)
    | FlagTested
    | FlushStarts
    | FlushFinishes
    | MainActorAppends(ts: string)
    | Cleared

  function Step(p: Pipeline, e: Event): Pipeline {
    match e
    case Output(prefix, chunk) =>
      (match ReadOutput(prefix, chunk) case None => p case Some(lines) => QueueAppend(p, lines))
    case Message(text) => QueueAppend(p, [text])
    case FlagTested => QueueCheck(p)
    case FlushStarts => FlushBegins(p)
    case FlushFinishes => FlushEnds(p)
    case MainActorAppends(ts) => Deliver(p, ts)
    case Cleared => ClearLogs(p)
  }

  function Run(p: Pipeline, events: seq<Event>): Pipeline
    decreases |events|
  {
    if |events| == 0 then p else Run(Step(p, events[0]), events[1..])
  }

  /** However the threads interleave, at most one flush is ever
      outstanding and the visible log never exceeds 300 entries. */
  lemma {:induction false} RunKeepsValid(p: Pipeline, events: seq<Event>)
    requires Valid(p) && |p.logs| <= MaxLogs
    ensures Valid(Run(p, events)) && Outstanding(Run(p, events)) <= 1
    ensures |Run(p, events).logs| <= MaxLogs
    decreases |events|
  {
    if |events| > 0 {
      RunKeepsValid(Step(p, events[0]), events[1..]);
    }
  }
}

=== FILE: proxy_cleanup.dfy ===
/** The safeguard of Vexar/Managers/ProcessManager.swift that turns the
    system web proxies off again: list the network services with
    `networksetup`, keep the lines that name a service, and switch both
    proxy kinds off for each. The processes themselves are not modelled;
    the listing is an input and the commands are the output. */
module ProxyCleanup {
  import opened Wrappers
  import opened Sequences
  import opened Text

  /** The explanatory first line of the listing contains this. */
  const HeaderMarker: string := "An asterisk"
  /** A line containing this is treated as a disabled service and skipped. */
  const DisabledMarker: string := "(*)"

  /** The filter closure: an empty line, the header and any line holding
      the disabled marker are dropped. */
  predicate IsServiceLine(line: string)
    ensures IsServiceLine(line) ==> |line| > 0
    ensures Contains(line, HeaderMarker) ==> !IsServiceLine(line)
    ensures Contains(line, DisabledMarker) ==> !IsServiceLine(line)
  {
    |line| > 0 && !Contains(line, HeaderMarker) && !Contains(line, DisabledMarker)
  }

  /** The marker test looks for the three characters `(*)`: a line whose
      only asterisk is a leading one, the way `networksetup` lists a
      disabled service, passes the filter. */
  lemma LeadingAsteriskIsKept()
    ensures IsServiceLine("*Wi-Fi")
  {
    var line := "*Wi-Fi";
    forall i | 0 <= i <= |line| - |DisabledMarker|
      ensures !OccursAt(line, DisabledMarker, i)
    {
      assert line[i] != '(';
      assert line[i..i + 3][0] == line[i];
    }
  }

  function KeepServiceLine(): string -> bool {
    (line: string) => IsServiceLine(line)
  }

  /** The service names in a listing: its lines, without empty lines, the
      header, or disabled services, in listing order. */
  function ServiceNames(listing: string): (r: seq<string>)
    ensures forall i :: 0 <= i < |r| ==> IsServiceLine(r[i]) && r[i] in Components(listing, Newlines)
    ensures forall i, j :: 0 <= i < |r| && 0 <= j < |r[i]| ==> !IsNewline(r[i][j])
    ensures forall i :: 0 <= i < |Components(listing, Newlines)| && IsServiceLine(Components(listing, Newlines)[i]) ==>
      Components(listing, Newlines)[i] in r
    ensures |r| <= CountWhere(listing, Newlines) + 1
  {
    var lines := Components(listing, Newlines);
    var r := Filter(lines, KeepServiceLine());
    ComponentsArePlain(listing, Newlines);
    ComponentsCount(listing, Newlines);
    assert forall i, j :: 0 <= i < |r| && 0 <= j < |r[i]| ==> !IsNewline(r[i][j]) by {
      forall i, j | 0 <= i < |r| && 0 <= j < |r[i]|
        ensures !IsNewline(r[i][j])
      {
        var k :| 0 <= k < |lines| && lines[k] == r[i];
        assert !IsSep(Newlines, lines[k][j]);
      }
    }
    r
  }

  /** The header line is not a service. */
  lemma HeaderDropped(header: string)
    requires Contains(header, HeaderMarker)
    ensures Filter([header], KeepServiceLine()) == []
  {
    assert !KeepServiceLine()(header);
    assert [header][1..] == [];
  }

  lemma ListingIsPlain(header: string, services: seq<string>)
    requires IsPlainLine(header)
    requires forall i :: 0 <= i < |services| ==> IsPlainLine(services[i])
    ensures forall i :: 0 <= i < |[header] + services| ==> IsPlainLine(([header] + services)[i])
  {
    var lines := [header] + services;
    forall i | 0 <= i < |lines|
      ensures IsPlainLine(lines[i])
    {
      if i > 0 {
        assert lines[i] == services[i - 1];
      }
    }
  }

  /** For a listing in the shape `networksetup` prints — the header line,
      then one line per service — exactly the enabled services come back,
      in order. */
  lemma ServiceNamesOfListing(header: string, services: seq<string>)
    requires IsPlainLine(header) && Contains(header, HeaderMarker)
    requires forall i :: 0 <= i < |services| ==> IsPlainLine(services[i]) && IsServiceLine(services[i])
    ensures ServiceNames(JoinLines([header] + services)) == services
  {
    ListingIsPlain(header, services);
    ServiceNamesOfLines([header] + services);
    HeaderDropped(header);
    FilterAppend([header], services, KeepServiceLine());
    FilterAll(services, KeepServiceLine());
  }

  /** For any listing made of newline-free lines, the service names are
      exactly the lines the filter keeps, in listing order. */
  lemma ServiceNamesOfLines(lines: seq<string>)
    requires forall i :: 0 <= i < |lines| ==> IsPlainLine(lines[i])
    ensures ServiceNames(JoinLines(lines)) == Filter(lines, KeepServiceLine())
  {
    if |lines| == 0 {
      ComponentsOfPlain("", Newlines);
      assert !KeepServiceLine()("");
      assert Filter([""], KeepServiceLine()) == Filter([""][1..], KeepServiceLine());
    } else {
      JoinLinesRoundTrip(lines);
    }
  }

  /** The two `networksetup` argument vectors for one service. */
  function ResetArguments(service: string): seq<seq<string>> {
    [["-setwebproxystate", service, "off"], ["-setsecurewebproxystate", service, "off"]]
  }

  /** Every command the cleanup runs, web proxy first, for each service in
      listing order. A listing that could not be obtained runs nothing. */
  function ResetCommands(listing: Option<string>): (r: seq<seq<string>>)
    ensures listing.None? ==> r == []
    ensures listing.Some? ==>
      && |r| == 2 * |ServiceNames(listing.value)|
      && forall i :: 0 <= i < |ServiceNames(listing.value)| ==>
           r[2 * i] == ResetArguments(ServiceNames(listing.value)[i])[0]
           && r[2 * i + 1] == ResetArguments(ServiceNames(listing.value)[i])[1]
  {
    match listing
    case None => []
    case Some(text) => CommandsFor(ServiceNames(text))
  }

  function CommandsFor(services: seq<string>): (r: seq<seq<string>>)
    ensures |r| == 2 * |services|
    ensures forall i :: 0 <= i < |services| ==>
      r[2 * i] == ResetArguments(services[i])[0] && r[2 * i + 1] == ResetArguments(services[i])[1]
  {
    if |services| == 0 then [] else ResetArguments(services[0]) + CommandsFor(services[1..])
  }

  /** The service each command names; every service is named twice,
      consecutively. */
  lemma CommandsNameEachServiceTwice(services: seq<string>)
    ensures forall k :: 0 <= k < |CommandsFor(services)| ==>
      |CommandsFor(services)[k]| == 3 && CommandsFor(services)[k][1] == services[k / 2]
      && CommandsFor(services)[k][2] == "off"
  {
    var r := CommandsFor(services);
    forall k | 0 <= k < |r|
      ensures |r[k]| == 3 && r[k][1] == services[k / 2] && r[k][2] == "off"
    {
      var i := k / 2;
      assert 0 <= i < |services|;
      if k % 2 == 0 {
        assert k == 2 * i;
        assert r[k] == ResetArguments(services[i])[0];
      } else {
        assert k == 2 * i + 1;
        assert r[k] == ResetArguments(services[i])[1];
      }
    }
  }
}

=== FILE: sequences.dfy ===
/** Order-preserving filtering and concatenation of sequences, the two
    collection operations Swift's `filter` and `joined` perform in the model. */
module Sequences {

  /** The elements of `s` that satisfy `keep`, in their original order. */
  function Filter<T>(s: seq<T>, keep: T -> bool): (r: seq<T>)
    ensures |r| <= |s|
    ensures forall i :: 0 <= i < |r| ==> keep(r[i])
    ensures forall i :: 0 <= i < |r| ==> r[i] in s
    ensures forall i :: 0 <= i < |s| && keep(s[i]) ==> s[i] in r
  {
    if |s| == 0 then []
    else if keep(s[0]) then [s[0]] + Filter(s[1..], keep)
    else Filter(s[1..], keep)
  }

  /** Filtering distributes over concatenation, so the kept elements keep
      their relative order. */
  lemma {:induction false} FilterAppend<T>(a: seq<T>, b: seq<T>, keep: T -> bool)
    ensures Filter(a + b, keep) == Filter(a, keep) + Filter(b, keep)
  {
    if |a| == 0 {
      assert a + b == b;
    } else {
      assert (a + b)[1..] == a[1..] + b;
      FilterAppend(a[1..], b, keep);
    }
  }

  /** Filtering with a predicate every element satisfies changes nothing. */
  lemma {:induction false} FilterAll<T>(s: seq<T>, keep: T -> bool)
    requires forall i :: 0 <= i < |s| ==> keep(s[i])
    ensures Filter(s, keep) == s
  {
    if |s| > 0 {
      FilterAll(s[1..], keep);
    }
  }

  /** The concatenation of all the sequences in `ss`. */
  function Flatten<T>(ss: seq<seq<T>>): seq<T>
  {
    if |ss| == 0 then [] else ss[0] + Flatten(ss[1..])
  }

  lemma {:induction false} FlattenAppend<T>(a: seq<seq<T>>, b: seq<seq<T>>)
    ensures Flatten(a + b) == Flatten(a) + Flatten(b)
  {
    if |a| == 0 {
      assert a + b == b;
    } else {
      assert (a + b)[1..] == a[1..] + b;
      FlattenAppend(a[1..], b);
    }
  }

  /** Dropping only empty sequences does not change the concatenation. */
  lemma {:induction false} FlattenDropsEmpty<T>(ss: seq<seq<T>>, keep: seq<T> -> bool)
    requires forall x :: !keep(x) ==> |x| == 0
    ensures Flatten(Filter(ss, keep)) == Flatten(ss)
  {
    if |ss| > 0 {
      FlattenDropsEmpty(ss[1..], keep);
      if !keep(ss[0]) {
        assert ss[0] + Flatten(ss[1..]) == Flatten(ss[1..]);
      }
    }
  }
}

=== FILE: supervisor.dfy ===
/** The proxy-process supervisor of Vexar/Managers/ProcessManager.swift as a
    state record stepped by events: the two steps of `start` (its first
    main-actor step, then the launch after the settle sleep), `stop` and
    `stopBlocking`, the OS reporting the child's exit, and the firing of the
    delayed tasks the supervisor schedules (the 1-second restart and the
    5-second crash-count reset). Any other event may come between the two
    steps of a start. Time is an integer clock in seconds. */
module Supervisor {
  import opened Wrappers
  import opened Launch

  /** At most this many automatic restarts inside one crash window. */
  const MaxCrashCount: nat := 3

  /** A crash more than this many seconds after the previous one starts a
      fresh count. */
  const CrashWindow: int := 60

  /** The lines the supervisor writes to the log, by meaning (their emoji
      and wording are not modelled). */
  datatype Notice =
    | Started(port: nat)
    | Terminated(status: int)
    | RestartAttempt(attempt: nat, limit: nat)
    | MaxRestartsReached

  /** The launched child: the binary's path and its argument vector. */
  datatype Child = Child(path: string, arguments: seq<string>)

  /** What the host answers while `start` runs: the bundled binary's path if
      the app bundle has one, which paths exist, which ports can be bound,
      and the error the OS reports when launching, if any. */
  datatype Host = Host(
    bundled: Option<string>,
    fileExists: string -> bool,
    isPortAvailable: nat -> bool,
    runError: Option<string>)

  datatype State = State(
    isRunning: bool,
    userStopped: bool,            // isUserInitiatedStop
    crashCount: nat,
    lastCrashTime: Option<int>,
    dnsAddress: Option<string>,   // the address the last start used
    process: Option<Child>,
    currentPort: nat,
    pendingRestarts: nat,         // restart tasks scheduled and not yet run
    pendingResets: nat,           // 5-second reset tasks not yet run
    launches: seq<Option<string>>,// starts past their first step, with their own address
    journal: seq<Notice>)

  const Initial: State := State(false, false, 0, None, None, None, FirstPort, 0, 0, [], [])

  /** The invariant every reachable state keeps. */
  predicate Valid(s: State) {
    && s.crashCount <= MaxCrashCount
    && (s.crashCount > 0 ==> s.lastCrashTime.Some?)
    && FirstPort <= s.currentPort <= LastPort
    && (s.isRunning ==> s.process.Some?)
  }

  /** Number of restart attempts recorded in a journal. */
  function Attempts(journal: seq<Notice>): nat {
    if |journal| == 0 then 0
    else (if journal[0].RestartAttempt? then 1 else 0) + Attempts(journal[1..])
  }

  lemma {:induction false} AttemptsAppend(a: seq<Notice>, b: seq<Notice>)
    ensures Attempts(a + b) == Attempts(a) + Attempts(b)
    decreases |a|
  {
    if |a| == 0 {
      assert a + b == b;
    } else {
      AttemptsAppend(a[1..], b);
      assert (a + b)[1..] == a[1..] + b;
    }
  }

  /** Some search path holds the binary. */
  predicate HasBinary(host: Host) {
    exists i :: 0 <= i < |BinaryCandidates(host.bundled)| && host.fileExists(BinaryCandidates(host.bundled)[i])
  }

  /** Some port from 8080 to 8090 can be bound. */
  predicate HasFreePort(host: Host) {
    exists q :: FirstPort <= q <= LastPort && host.isPortAvailable(q)
  }

  /** The host lets a launch succeed. */
  predicate CanLaunch(host: Host) {
    HasBinary(host) && HasFreePort(host) && host.runError.None?
  }

  /** First step of `start(dnsAddress:)`, on the main actor: the user-stop
      flag is cleared and the address remembered. The rest of the call
      waits out the settle sleep and runs later as its own event, with the
      address it was called with. */
  function BeginStart(s: State, dns: Option<string>): (r: State)
    ensures Valid(s) ==> Valid(r)
    ensures !r.userStopped && r.dnsAddress == dns
    ensures r.launches == s.launches + [dns]
    ensures r == s.(userStopped := false, dnsAddress := dns, launches := r.launches)
  {
    s.(userStopped := false, dnsAddress := dns, launches := s.launches + [dns])
  }

  /** The rest of `start`: looks for the binary and a free port, records
      the child with its arguments and port, and launches it. Each failure
      leaves the state as far as the source had got. The user-stop flag is
      not looked at. */
  function LaunchChild(s: State, dns: Option<string>, host: Host): (r: (State, Outcome<ProcessError>))
    ensures Valid(s) ==> Valid(r.0)
    ensures r.0.userStopped == s.userStopped && r.0.dnsAddress == s.dnsAddress && r.0.launches == s.launches
    ensures r.0.crashCount == s.crashCount && r.0.lastCrashTime == s.lastCrashTime
    ensures r.0.pendingRestarts == s.pendingRestarts && r.0.pendingResets >= s.pendingResets
    ensures r.1 == Fail(BinaryNotFound) <==> !HasBinary(host)
    ensures r.1 == Fail(NoPortsAvailable) <==> HasBinary(host) && !HasFreePort(host)
    ensures HasBinary(host) && HasFreePort(host) && host.runError.Some? ==>
      r.1 == Fail(StartFailed(host.runError.value)) && r.0.process.Some?
    ensures r.1 == Pass <==> CanLaunch(host)
    ensures r.1 == Fail(BinaryNotFound) || r.1 == Fail(NoPortsAvailable) ==> r.0 == s
    ensures r.1.Fail? ==> r.0 == s.(process := r.0.process, currentPort := r.0.currentPort)
    ensures r.1 == Pass ==> r.0 == s.(isRunning := true, process := r.0.process, currentPort := r.0.currentPort,
                                      journal := r.0.journal, pendingResets := r.0.pendingResets)
    ensures r.0.process != s.process ==>
      r.0.process.Some? && r.0.process.value.arguments == ProcessArguments(r.0.currentPort, dns)
    ensures r.1.Fail? ==>
      r.0.isRunning == s.isRunning && r.0.journal == s.journal && r.0.pendingResets == s.pendingResets
    ensures r.1 == Pass ==>
      && r.0.isRunning
      && r.0.process.Some?
      && FindBinary(BinaryCandidates(host.bundled), host.fileExists) == Some(r.0.process.value.path)
      && r.0.process.value.arguments == ProcessArguments(r.0.currentPort, dns)
      && host.isPortAvailable(r.0.currentPort)
      && (forall q :: FirstPort <= q < r.0.currentPort ==> !host.isPortAvailable(q))
      && r.0.journal == s.journal + [Started(r.0.currentPort)]
      && r.0.pendingResets == s.pendingResets + 1
  {
    match FindBinary(BinaryCandidates(host.bundled), host.fileExists)
    case None => (s, Fail(BinaryNotFound))
    case Some(path) =>
      match ScanPorts(FirstPort, host.isPortAvailable)
      case Failure(e) => (s, Fail(e))
      case Success(port) =>
        var s1 := s.(process := Some(Child(path, ProcessArguments(port, dns))), currentPort := port);
        match host.runError
        case Some(reason) => (s1, Fail(StartFailed(reason)))
        case None =>
          (s1.(isRunning := true, journal := s1.journal + [Started(port)], pendingResets := s1.pendingResets + 1), Pass)
  }

  /** A waiting start, the `i`-th, resumes and launches with its own
      address. With no such start nothing happens. */
  function LaunchFires(s: State, i: nat, host: Host): (r: State)
    ensures Valid(s) ==> Valid(r)
    ensures i >= |s.launches| ==> r == s
    ensures r == s.(launches := r.launches, isRunning := r.isRunning, process := r.process,
                    currentPort := r.currentPort, journal := r.journal, pendingResets := r.pendingResets)
    ensures i < |s.launches| && !CanLaunch(host) ==>
      r.isRunning == s.isRunning && r.journal == s.journal && r.pendingResets == s.pendingResets
    ensures i < |s.launches| && !(HasBinary(host) && HasFreePort(host)) ==>
      r == s.(launches := s.launches[..i] + s.launches[i + 1..])
    ensures i < |s.launches| && CanLaunch(host) ==>
      && r.process.Some?
      && FindBinary(BinaryCandidates(host.bundled), host.fileExists) == Some(r.process.value.path)
      && host.isPortAvailable(r.currentPort)
      && (forall q :: FirstPort <= q < r.currentPort ==> !host.isPortAvailable(q))
      && r.journal == s.journal + [Started(r.currentPort)]
    ensures i < |s.launches| ==>
      && r.launches == s.launches[..i] + s.launches[i + 1..]
      && r.userStopped == s.userStopped && r.dnsAddress == s.dnsAddress
      && r.crashCount == s.crashCount && r.lastCrashTime == s.lastCrashTime
      && r.pendingRestarts == s.pendingRestarts && r.pendingResets >= s.pendingResets
      && Attempts(r.journal) == Attempts(s.journal)
      && (CanLaunch(host) ==> r.isRunning && r.pendingResets == s.pendingResets + 1)
      && (r.process != s.process ==>
            r.process.Some? && r.process.value.arguments == ProcessArguments(r.currentPort, s.launches[i]))
  {
    if i >= |s.launches| then s
    else
      var r := LaunchChild(s.(launches := s.launches[..i] + s.launches[i + 1..]), s.launches[i], host);
      assert r.0.journal == s.journal || r.0.journal == s.journal + [Started(r.0.currentPort)];
      AttemptsAppend(s.journal, [Started(r.0.currentPort)]);
      r.0
  }

  /** `start(dnsAddress:)` with nothing happening between its two steps. */
  function Start(s: State, dns: Option<string>, host: Host): (r: (State, Outcome<ProcessError>))
    ensures Valid(s) ==> Valid(r.0)
    ensures !r.0.userStopped && r.0.dnsAddress == dns && r.0.launches == s.launches
    ensures r.1 == Pass <==> CanLaunch(host)
    ensures r.1 == Pass ==> r.0.isRunning && r.0.process.Some?
    ensures r.0.process != s.process ==>
      r.0.process.Some? && r.0.process.value.arguments == ProcessArguments(r.0.currentPort, dns)
  {
    LaunchChild(s.(userStopped := false, dnsAddress := dns), dns, host)
  }

  /** The uninterrupted start is the first step followed at once by the
      launch it queued. */
  lemma StartIsBeginThenLaunch(s: State, dns: Option<string>, host: Host)
    ensures LaunchFires(BeginStart(s, dns), |s.launches|, host) == Start(s, dns, host).0
  {
  }

  /** `stop()`: marks the next exit as user-initiated; when the recorded
      child is still alive (`childAlive` is the OS's answer) it is
      terminated and forgotten. The supervisor is no longer running. */
  function Stop(s: State, childAlive: bool): (r: State)
    ensures Valid(s) ==> Valid(r)
    ensures r.userStopped && !r.isRunning
    ensures r.process == (if childAlive then None else s.process)
    ensures r == s.(userStopped := true, isRunning := false, process := r.process)
  {
    if s.process.Some? && childAlive then
      s.(userStopped := true, isRunning := false, process := None)
    else
      s.(userStopped := true, isRunning := false)
  }

  /** `stopBlocking()`: does nothing unless the recorded child is alive;
      otherwise terminates and forgets it. Unlike `stop()` it leaves the
      user-stop flag alone. */
  function StopBlocking(s: State, childAlive: bool): (r: State)
    ensures Valid(s) ==> Valid(r)
    ensures r.userStopped == s.userStopped && r.crashCount == s.crashCount
    ensures s.process.Some? && childAlive ==> r == s.(isRunning := false, process := None)
    ensures !(s.process.Some? && childAlive) ==> r == s
  {
    if s.process.Some? && childAlive then s.(isRunning := false, process := None) else s
  }

  /** The crash count the limit is checked against when a crash happens at
      `now`: zero when the previous crash was strictly more than a window
      earlier, the stored count otherwise. */
  function CountBefore(s: State, now: int): (r: nat)
    ensures r == s.crashCount || r == 0
    ensures r != s.crashCount ==> s.lastCrashTime.Some? && now > s.lastCrashTime.value + CrashWindow
    ensures s.lastCrashTime.Some? && now > s.lastCrashTime.value + CrashWindow ==> r == 0
  {
    match s.lastCrashTime
    case Some(last) => if now - last > CrashWindow then 0 else s.crashCount
    case None => s.crashCount
  }

  /** `handleTermination`: the child exited with `status` at time `now`. The
      supervisor stops running and logs the exit. An exit that is neither
      user-initiated nor clean is a crash: below the limit it bumps the
      count, stamps the crash time and schedules a restart; at the limit it
      only logs that it gives up. */
  function Terminate(s: State, status: int, now: int): (r: State)
    ensures Valid(s) ==> Valid(r)
    ensures !r.isRunning && r.userStopped == s.userStopped && r.dnsAddress == s.dnsAddress
    ensures r.process == s.process && r.currentPort == s.currentPort && r.pendingResets == s.pendingResets
    ensures |r.journal| > |s.journal| && r.journal[..|s.journal| + 1] == s.journal + [Terminated(status)]
    ensures r == s.(isRunning := false, crashCount := r.crashCount, lastCrashTime := r.lastCrashTime,
                    pendingRestarts := r.pendingRestarts, journal := r.journal)
    ensures s.userStopped || status == 0 ==>
      r == s.(isRunning := false, journal := s.journal + [Terminated(status)])
    ensures !s.userStopped && status != 0 && CountBefore(s, now) < MaxCrashCount ==>
      && r.crashCount == CountBefore(s, now) + 1
      && r.lastCrashTime == Some(now)
      && r.pendingRestarts == s.pendingRestarts + 1
      && r.journal == s.journal + [Terminated(status), RestartAttempt(r.crashCount, MaxCrashCount)]
    ensures !s.userStopped && status != 0 && CountBefore(s, now) >= MaxCrashCount ==>
      && r.crashCount == s.crashCount
      && r.lastCrashTime == s.lastCrashTime
      && r.pendingRestarts == s.pendingRestarts
      && r.journal == s.journal + [Terminated(status), MaxRestartsReached]
  {
    var s1 := s.(isRunning := false, journal := s.journal + [Terminated(status)]);
    if !s.userStopped && status != 0 then
      var count := CountBefore(s, now);
      if count < MaxCrashCount then
        s1.(crashCount := count + 1, lastCrashTime := Some(now),
            journal := s1.journal + [RestartAttempt(count + 1, MaxCrashCount)],
            pendingRestarts := s1.pendingRestarts + 1)
      else
        s1.(crashCount := count, journal := s1.journal + [MaxRestartsReached])
    else
      s1
  }

  /** A scheduled restart runs: it calls `start` with the DNS address
      stored at that moment, which clears the user-stop flag at once and
      queues the launch; any error of that launch is swallowed. The
      user-stop flag is not looked at. With no restart pending nothing
      happens. */
  function RestartFires(s: State): (r: State)
    ensures Valid(s) ==> Valid(r)
    ensures s.pendingRestarts == 0 ==> r == s
    ensures s.pendingRestarts > 0 ==>
      && r.pendingRestarts == s.pendingRestarts - 1
      && !r.userStopped
      && r.launches == s.launches + [s.dnsAddress]
      && r.dnsAddress == s.dnsAddress
      && r.crashCount == s.crashCount && r.lastCrashTime == s.lastCrashTime
      && r.isRunning == s.isRunning && r.process == s.process && r.journal == s.journal
    ensures s.pendingRestarts > 0 ==>
      r == s.(pendingRestarts := s.pendingRestarts - 1, userStopped := false, launches := s.launches + [s.dnsAddress])
  {
    if s.pendingRestarts == 0 then s
    else BeginStart(s.(pendingRestarts := s.pendingRestarts - 1), s.dnsAddress)
  }

  /** The 5-second task a successful start schedules runs: if the supervisor
      is running at that moment, whichever start scheduled it, the crash
      count goes back to zero. The crash time is kept. */
  function ResetFires(s: State): (r: State)
    ensures Valid(s) ==> Valid(r)
    ensures s.pendingResets == 0 ==> r == s
    ensures s.pendingResets > 0 ==> r == s.(pendingResets := s.pendingResets - 1, crashCount := r.crashCount)
    ensures r.lastCrashTime == s.lastCrashTime && r.isRunning == s.isRunning
    ensures r.crashCount == (if s.pendingResets > 0 && s.isRunning then 0 else s.crashCount)
  {
    if s.pendingResets == 0 then s
    else
      var s1 := s.(pendingResets := s.pendingResets - 1);
      if s1.isRunning then s1.(crashCount := 0) else s1
  }

  datatype Event =
    | StartCalled(dns: Option<string>)
    | LaunchResumes(index: nat, host: Host)
    | StopCalled(childAlive: bool)
    | StopBlockingCalled(childAlive: bool)
    | ChildExited(status: int, now: int)
    | RestartTimer
    | ResetTimer

  function Step(s: State, e: Event): State {
    match e
    case StartCalled(dns) => BeginStart(s, dns)
    case LaunchResumes(i, host) => LaunchFires(s, i, host)
    case StopCalled(alive) => Stop(s, alive)
    case StopBlockingCalled(alive) => StopBlocking(s, alive)
    case ChildExited(status, now) => Terminate(s, status, now)
    case RestartTimer => RestartFires(s)
    case ResetTimer => ResetFires(s)
  }

  function Run(s: State, events: seq<Event>): State
    decreases |events|
  {
    if |events| == 0 then s else Run(Step(s, events[0]), events[1..])
  }

  /** Every event keeps the invariant. */
  lemma StepKeepsValid(s: State, e: Event)
    requires Valid(s)
    ensures Valid(Step(s, e))
  {
  }

  /** Every reachable state is valid: in particular the crash count never
      exceeds three and the current port stays within 8080 to 8090. */
  lemma {:induction false} RunKeepsValid(s: State, events: seq<Event>)
    requires Valid(s)
    ensures Valid(Run(s, events))
    ensures Run(s, events).crashCount <= MaxCrashCount
    ensures FirstPort <= Run(s, events).currentPort <= LastPort
    decreases |events|
  {
    if |events| > 0 {
      StepKeepsValid(s, events[0]);
      RunKeepsValid(Step(s, events[0]), events[1..]);
    }
  }

  lemma InitialIsValid()
    ensures Valid(Initial)
  {
  }

  /** A crash exactly one window after the previous one still counts
      against the limit; one second later the count starts afresh. */
  lemma CrashWindowIsStrict(s: State, status: int, t: int)
    requires Valid(s) && !s.userStopped && status != 0
    requires s.crashCount == MaxCrashCount && s.lastCrashTime == Some(t)
    ensures Terminate(s, status, t + CrashWindow).pendingRestarts == s.pendingRestarts
    ensures Terminate(s, status, t + CrashWindow).journal[|s.journal| + 1] == MaxRestartsReached
    ensures Terminate(s, status, t + CrashWindow + 1).pendingRestarts == s.pendingRestarts + 1
    ensures Terminate(s, status, t + CrashWindow + 1).crashCount == 1
  {
  }

  /** A crash schedules a restart exactly when fewer than three crashes
      are counted in the current window. */
  lemma RestartIffBelowLimit(s: State, status: int, now: int)
    requires !s.userStopped && status != 0
    ensures Terminate(s, status, now).pendingRestarts == s.pendingRestarts + 1 <==> CountBefore(s, now) < MaxCrashCount
    ensures Terminate(s, status, now).pendingRestarts == s.pendingRestarts <==> CountBefore(s, now) >= MaxCrashCount
  {
  }

  /** One crash below the limit, followed by the restart it schedules and
      the launch that restart queues. */
  lemma CrashThenRestart(s: State, status: int, now: int, host: Host)
    requires Valid(s) && !s.userStopped && s.pendingRestarts == 0 && s.launches == [] && status != 0
    requires CountBefore(s, now) == s.crashCount < MaxCrashCount
    ensures
      var r := LaunchFires(RestartFires(Terminate(s, status, now)), 0, host);
      && Valid(r) && !r.userStopped && r.pendingRestarts == 0 && r.launches == []
      && r.crashCount == s.crashCount + 1 && r.lastCrashTime == Some(now)
      && r.dnsAddress == s.dnsAddress
      && Attempts(r.journal) == Attempts(s.journal) + 1
      && (r.process != s.process ==> r.process.Some? && r.process.value.arguments == ProcessArguments(r.currentPort, s.dnsAddress))
  {
    var n := [Terminated(status), RestartAttempt(s.crashCount + 1, MaxCrashCount)];
    AttemptsAppend(s.journal, n);
    assert Attempts(n) == 1 by {
      assert n[1..][1..] == [];
      assert Attempts(n[1..]) == 1;
    }
    var q := RestartFires(Terminate(s, status, now));
    assert q.launches == [s.dnsAddress];
    assert q.launches[..0] + q.launches[1..] == [];
  }

  /** Four crashes, each within a window of the previous one, with the
      scheduled restarts launching in between and no reset task firing,
      give exactly three restart attempts; the fourth crash gives up. Every restart reuses the DNS
      address of the original start. */
  lemma FourQuickCrashes(s0: State, status: int, t1: int, t2: int, t3: int, t4: int, h1: Host, h2: Host, h3: Host)
    requires Valid(s0) && !s0.userStopped && s0.crashCount == 0 && s0.pendingRestarts == 0 && s0.launches == []
    requires status != 0
    requires t1 <= t2 <= t1 + CrashWindow && t2 <= t3 <= t2 + CrashWindow && t3 <= t4 <= t3 + CrashWindow
    ensures
      var s1 := LaunchFires(RestartFires(Terminate(s0, status, t1)), 0, h1);
      var s2 := LaunchFires(RestartFires(Terminate(s1, status, t2)), 0, h2);
      var s3 := LaunchFires(RestartFires(Terminate(s2, status, t3)), 0, h3);
      var s4 := Terminate(s3, status, t4);
      && Attempts(s4.journal) == Attempts(s0.journal) + 3
      && s4.journal[|s4.journal| - 1] == MaxRestartsReached
      && s4.crashCount == MaxCrashCount && s4.pendingRestarts == 0 && !s4.isRunning
      && s1.dnsAddress == s0.dnsAddress && s2.dnsAddress == s0.dnsAddress && s3.dnsAddress == s0.dnsAddress
  {
    CrashThenRestart(s0, status, t1, h1);
    var s1 := LaunchFires(RestartFires(Terminate(s0, status, t1)), 0, h1);
    CrashThenRestart(s1, status, t2, h2);
    var s2 := LaunchFires(RestartFires(Terminate(s1, status, t2)), 0, h2);
    CrashThenRestart(s2, status, t3, h3);
    var s3 := LaunchFires(RestartFires(Terminate(s2, status, t3)), 0, h3);
    var n := [Terminated(status), MaxRestartsReached];
    AttemptsAppend(s3.journal, n);
    assert Attempts(n) == 0 by {
      assert n[1..][1..] == [];
      assert Attempts(n[1..]) == 0;
    }
  }

  /** A restart scheduled before `stop()` still runs afterwards: it clears
      the user-stop flag and, if the host can launch the binary, the proxy
      is running again. */
  lemma StopDoesNotCancelPendingRestart(s: State, childAlive: bool, host: Host)
    requires s.pendingRestarts > 0 && CanLaunch(host)
    ensures LaunchFires(RestartFires(Stop(s, childAlive)), |s.launches|, host).isRunning
    ensures !LaunchFires(RestartFires(Stop(s, childAlive)), |s.launches|, host).userStopped
  {
  }

  /** `stop()` while a start waits out its settle sleep: the launch goes
      ahead with the user-stop flag still set, so the proxy runs although
      the user stopped it, and when that child crashes no restart is
      scheduled and the crash is not counted. */
  lemma StopDuringLaunchWait(s: State, dns: Option<string>, childAlive: bool, host: Host, status: int, now: int)
    requires CanLaunch(host)
    ensures
      var launched := LaunchFires(Stop(BeginStart(s, dns), childAlive), |s.launches|, host);
      var crashed := Terminate(launched, status, now);
      && launched.isRunning && launched.userStopped
      && crashed.pendingRestarts == s.pendingRestarts && crashed.crashCount == s.crashCount
  {
  }

  /** `stop()` followed by `start()`: the start clears the user-stop flag in
      its first step, so if the old child's exit is reported afterwards
      with a non-zero status it is taken for a crash and a restart is
      scheduled. */
  lemma LateExitAfterRestartIsACrash(s: State, childAlive: bool, dns: Option<string>, status: int, now: int)
    requires status != 0 && CountBefore(s, now) < MaxCrashCount
    ensures
      var r := Terminate(BeginStart(Stop(s, childAlive), dns), status, now);
      r.pendingRestarts == s.pendingRestarts + 1 && r.crashCount == CountBefore(s, now) + 1
  {
    var s1 := BeginStart(Stop(s, childAlive), dns);
    assert CountBefore(s1, now) == CountBefore(s, now);
  }

  /** `stopBlocking()` leaves the user-stop flag as it was, so if the child
      it terminates exits with a non-zero status, that exit is counted as a
      crash and arms a restart. */
  lemma StopBlockingExitIsACrash(s: State, status: int, now: int)
    requires !s.userStopped && s.process.Some? && status != 0 && CountBefore(s, now) < MaxCrashCount
    ensures Terminate(StopBlocking(s, true), status, now).pendingRestarts == s.pendingRestarts + 1
  {
    assert CountBefore(StopBlocking(s, true), now) == CountBefore(s, now);
  }

  /** The reset tasks are not tied to the start that scheduled them: one
      left over from before a crash fires while the restarted child is
      running and zeroes the count at once, so a child that keeps crashing
      within five seconds of its start need not reach the limit. */
  lemma StaleResetClearsCount(s: State, status: int, now: int, host: Host)
    requires !s.userStopped && status != 0 && s.pendingResets > 0 && s.pendingRestarts == 0
    requires CountBefore(s, now) < MaxCrashCount && CanLaunch(host)
    ensures Terminate(s, status, now).crashCount == CountBefore(s, now) + 1
    ensures ResetFires(LaunchFires(RestartFires(Terminate(s, status, now)), |s.launches|, host)).crashCount == 0
  {
  }
}

=== FILE: text.dfy ===
/** Text operations Foundation performs for the model: splitting at separator
    characters (`components(separatedBy:)`), substring search
    (`contains`), and decimal rendering of integers (string interpolation). */
module Text {
  import opened Wrappers
  import opened Sequences

  /** The characters of Foundation's `CharacterSet.newlines`:
      U+000A to U+000D, U+0085, U+2028 and U+2029. */
  predicate IsNewline(c: char) {
    || c == '\n' || c == '\U{000B}' || c == '\U{000C}' || c == '\r'
    || c == '\U{0085}' || c == '\U{2028}' || c == '\U{2029}'
  }

  /** The separator classes the model splits text at. */
  datatype Separator = Newlines | Colon | Dot

  predicate IsSep(sep: Separator, c: char) {
    match sep
    case Newlines => IsNewline(c)
    case Colon => c == ':'
    case Dot => c == '.'
  }

  /** Number of characters of `s` that are separators. */
  function CountWhere(s: string, sep: Separator): nat {
    if |s| == 0 then 0
    else (if IsSep(sep, s[0]) then 1 else 0) + CountWhere(s[1..], sep)
  }

  /** `s` with every separator character removed. */
  function Strip(s: string, sep: Separator): string {
    if |s| == 0 then []
    else (if IsSep(sep, s[0]) then [] else [s[0]]) + Strip(s[1..], sep)
  }

  lemma {:induction false} CountStripAppend(a: string, b: string, sep: Separator)
    ensures CountWhere(a + b, sep) == CountWhere(a, sep) + CountWhere(b, sep)
    ensures Strip(a + b, sep) == Strip(a, sep) + Strip(b, sep)
  {
    if |a| == 0 {
      assert a + b == b;
    } else {
      assert (a + b)[1..] == a[1..] + b;
      CountStripAppend(a[1..], b, sep);
    }
  }

  lemma {:induction false} CountStripPlain(s: string, sep: Separator)
    requires forall i :: 0 <= i < |s| ==> !IsSep(sep, s[i])
    ensures CountWhere(s, sep) == 0 && Strip(s, sep) == s
  {
    if |s| > 0 {
      CountStripPlain(s[1..], sep);
      assert [s[0]] + s[1..] == s;
    }
  }

  /** Position of the first separator in `s`, or `|s|` when there is none. */
  function FirstSeparator(s: string, sep: Separator): (k: nat)
    ensures k <= |s|
    ensures forall j :: 0 <= j < k ==> !IsSep(sep, s[j])
    ensures k < |s| ==> IsSep(sep, s[k])
  {
    if |s| == 0 || IsSep(sep, s[0]) then 0 else 1 + FirstSeparator(s[1..], sep)
  }

  /** The pieces of `s` between separator characters, empty pieces included,
      as `components(separatedBy:)` returns them: the text before the first
      separator, then the pieces of the text after it. */
  function Components(s: string, sep: Separator): (r: seq<string>)
    ensures |r| >= 1
    ensures |r[0]| == FirstSeparator(s, sep) && r[0] == s[..|r[0]|]
    ensures |r| > 1 <==> |r[0]| < |s|
    decreases |s|
  {
    var k := FirstSeparator(s, sep);
    if k == |s| then [s] else [s[..k]] + Components(s[k + 1..], sep)
  }

  /** Removing separators from `a + [c] + b`, where `a` has none and `c` is
      one, leaves `a` followed by what remains of `b`. */
  lemma StripAtSeparator(a: string, c: char, b: string, sep: Separator)
    requires forall i :: 0 <= i < |a| ==> !IsSep(sep, a[i])
    requires IsSep(sep, c)
    ensures Strip(a + [c] + b, sep) == a + Strip(b, sep)
  {
    CountStripPlain(a, sep);
    CountStripAppend(a + [c], b, sep);
    CountStripAppend(a, [c], sep);
    assert Strip([c], sep) == [] by {
      assert [c][1..] == [];
    }
    calc {
      Strip(a + [c] + b, sep);
      Strip(a + [c], sep) + Strip(b, sep);
      (Strip(a, sep) + Strip([c], sep)) + Strip(b, sep);
      (a + []) + Strip(b, sep);
      { assert a + [] == a; }
      a + Strip(b, sep);
    }
  }

  /** Likewise `a + [c] + b` holds one separator more than `b`. */
  lemma CountAtSeparator(a: string, c: char, b: string, sep: Separator)
    requires forall i :: 0 <= i < |a| ==> !IsSep(sep, a[i])
    requires IsSep(sep, c)
    ensures CountWhere(a + [c] + b, sep) == 1 + CountWhere(b, sep)
  {
    CountStripPlain(a, sep);
    CountStripAppend(a + [c], b, sep);
    CountStripAppend(a, [c], sep);
    assert CountWhere([c], sep) == 1 by {
      assert [c][1..] == [];
    }
  }

  /** There is always one more piece than there are separators. */
  lemma {:induction false} ComponentsCount(s: string, sep: Separator)
    ensures |Components(s, sep)| == CountWhere(s, sep) + 1
    decreases |s|
  {
    var k := FirstSeparator(s, sep);
    if k < |s| {
      var a, b := s[..k], s[k + 1..];
      assert s == a + [s[k]] + b;
      ComponentsAtFirstSeparator(a, s[k], b, sep);
      CountAtSeparator(a, s[k], b, sep);
      ComponentsCount(b, sep);
    } else {
      CountStripPlain(s, sep);
    }
  }

  /** No piece holds a separator. */
  lemma {:induction false} ComponentsArePlain(s: string, sep: Separator)
    ensures forall i, j :: 0 <= i < |Components(s, sep)| && 0 <= j < |Components(s, sep)[i]| ==>
      !IsSep(sep, Components(s, sep)[i][j])
    decreases |s|
  {
    var k := FirstSeparator(s, sep);
    if k < |s| {
      ComponentsArePlain(s[k + 1..], sep);
    }
  }

  /** The pieces together hold every non-separator character of `s`, in order. */
  lemma {:induction false} ComponentsFlatten(s: string, sep: Separator)
    ensures Flatten(Components(s, sep)) == Strip(s, sep)
    decreases |s|
  {
    var k := FirstSeparator(s, sep);
    if k < |s| {
      var a, b := s[..k], s[k + 1..];
      assert s == a + [s[k]] + b;
      ComponentsAtFirstSeparator(a, s[k], b, sep);
      StripAtSeparator(a, s[k], b, sep);
      ComponentsFlatten(b, sep);
      assert Flatten([a] + Components(b, sep)) == a + Flatten(Components(b, sep)) by {
        assert ([a] + Components(b, sep))[1..] == Components(b, sep);
      }
    } else {
      CountStripPlain(s, sep);
      assert Flatten([s]) == s + Flatten([]);
    }
  }

  /** A text without separators is a single piece. */
  lemma ComponentsOfPlain(s: string, sep: Separator)
    requires forall i :: 0 <= i < |s| ==> !IsSep(sep, s[i])
    ensures Components(s, sep) == [s]
  {
    assert FirstSeparator(s, sep) == |s|;
  }

  /** Splitting `a + [c] + b` at a separator `c`, where `a` has no
      separator, yields `a` followed by the pieces of `b`. */
  lemma ComponentsAtFirstSeparator(a: string, c: char, b: string, sep: Separator)
    requires forall i :: 0 <= i < |a| ==> !IsSep(sep, a[i])
    requires IsSep(sep, c)
    ensures Components(a + [c] + b, sep) == [a] + Components(b, sep)
  {
    var s := a + [c] + b;
    var k := FirstSeparator(s, sep);
    assert s[|a|] == c;
    assert k == |a|;
    assert s[..k] == a;
    assert s[k + 1..] == b;
  }

  /** Lines joined with a line feed between each two. */
  function JoinLines(lines: seq<string>): string
    decreases |lines|
  {
    if |lines| == 0 then "" else if |lines| == 1 then lines[0] else lines[0] + "\n" + JoinLines(lines[1..])
  }

  /** A line holds no newline character. */
  predicate IsPlainLine(line: string) {
    forall j :: 0 <= j < |line| ==> !IsSep(Newlines, line[j])
  }

  lemma JoinLinesStep(lines: seq<string>)
    requires |lines| > 1
    ensures JoinLines(lines) == lines[0] + ['\n'] + JoinLines(lines[1..])
  {
  }

  lemma PlainTail(lines: seq<string>)
    requires |lines| > 0
    requires forall i :: 0 <= i < |lines| ==> IsPlainLine(lines[i])
    ensures IsPlainLine(lines[0])
    ensures forall i :: 0 <= i < |lines[1..]| ==> IsPlainLine(lines[1..][i])
  {
    forall i | 0 <= i < |lines[1..]|
      ensures IsPlainLine(lines[1..][i])
    {
      assert lines[1..][i] == lines[i + 1];
    }
  }

  /** Splitting joined lines at newlines gives the lines back. */
  lemma {:induction false} JoinLinesRoundTrip(lines: seq<string>)
    requires |lines| > 0
    requires forall i :: 0 <= i < |lines| ==> IsPlainLine(lines[i])
    ensures Components(JoinLines(lines), Newlines) == lines
    decreases |lines|
  {
    PlainTail(lines);
    if |lines| == 1 {
      ComponentsOfPlain(lines[0], Newlines);
    } else {
      JoinLinesStep(lines);
      JoinLinesRoundTrip(lines[1..]);
      ComponentsAtFirstSeparator(lines[0], '\n', JoinLines(lines[1..]), Newlines);
      assert [lines[0]] + lines[1..] == lines;
    }
  }

  /** Whether `sub` occurs in `s` starting at position `i`. */
  predicate OccursAt(s: string, sub: string, i: int) {
    0 <= i && i + |sub| <= |s| && s[i..i + |sub|] == sub
  }

  /** Whether `sub` occurs in `s` as a contiguous run, like `String.contains`. */
  predicate Contains(s: string, sub: string) {
    exists i | 0 <= i <= |s| - |sub| :: OccursAt(s, sub, i)
  }

  predicate IsDigit(c: char) {
    '0' <= c <= '9'
  }

  function DigitChar(d: nat): (c: char)
    requires d < 10
    ensures IsDigit(c)
  {
    ('0' as int + d) as char
  }

  function DigitValue(c: char): (d: nat)
    requires IsDigit(c)
    ensures d < 10 && DigitChar(d) == c
  {
    c as int - '0' as int
  }

  /** Decimal text of `n`, as string interpolation renders an `Int`. */
  function Decimal(n: nat): (r: string)
    ensures |r| >= 1
    ensures forall i :: 0 <= i < |r| ==> IsDigit(r[i])
    ensures |r| > 1 ==> r[0] != '0'
  {
    if n < 10 then [DigitChar(n)] else Decimal(n / 10) + [DigitChar(n % 10)]
  }

  /** Value of a run of decimal digits, most significant first. */
  function DigitsValue(s: string): nat
    requires forall i :: 0 <= i < |s| ==> IsDigit(s[i])
  {
    if |s| == 0 then 0 else DigitsValue(s[..|s| - 1]) * 10 + DigitValue(s[|s| - 1])
  }

  /** Reads a non-empty run of decimal digits back into a number. */
  function ParseDecimal(s: string): Option<nat> {
    if |s| > 0 && forall i :: 0 <= i < |s| ==> IsDigit(s[i]) then Some(DigitsValue(s)) else None
  }

  /** Reading the decimal text of a number gives the number back, so distinct
      numbers render as distinct texts. */
  lemma {:induction false} DecimalRoundTrip(n: nat)
    ensures ParseDecimal(Decimal(n)) == Some(n)
  {
    var r := Decimal(n);
    if n >= 10 {
      DecimalRoundTrip(n / 10);
      assert r[..|r| - 1] == Decimal(n / 10);
      assert DigitValue(r[|r| - 1]) == n % 10;
    } else {
      assert r == [DigitChar(n)];
      assert r[..0] == [];
      assert DigitValue(r[0]) == n;
      assert DigitsValue(r) == n;
    }
  }

  /** A decimal text holds no colon, so it can follow the `:` of a
      `host:port` address without changing where the host ends. */
  lemma DecimalHasNoColon(n: nat)
    ensures forall i :: 0 <= i < |Decimal(n)| ==> !IsSep(Colon, Decimal(n)[i])
  {
  }
}

=== FILE: wrappers.dfy ===
/** Failure-carrying datatypes shared by the model: an optional value (Swift's
    `Optional`), a value-or-error result (a Swift `throws` function), and a
    pass-or-error outcome (a `throws` function returning `Void`). */
module Wrappers {

  datatype Option<+T> = None | Some(value: T) {

    /** The wrapped value, or `default` when there is none. */
    function GetOr(default: T): T {
      match this
      case Some(v) => v
      case None => default
    }
  }

  datatype Result<+R, +E> = Success(value: R) | Failure(error: E)

  datatype Outcome<+E> = Pass | Fail(error: E)
}
